=== FILE: README.md ===
# Dash dashboard prototypes: a Dafny model of the dashboard logic

The repository holds near-duplicate prototypes of dashboards built on Dash
(rapid_dash, quick_dash and an earlier dash directory). Beneath the widget,
plotly and pandas calls, four pieces of sequential logic decide what the
dashboards show. This project models them as pure Dafny functions over
`seq`, `map` and datatypes, and proves what each promises:

- **Refresh coordinator** (`Dashboard`, dashboard.dfy). It covers:
  - tab lookup by value (`get_tab_cls`);
  - the test that turns the refresh timer on (`check_if_tab_dynamic` and the
    interval callback);
  - `get_dynamic_tab_content`, `minutes_to_milliseconds` and the initial
    layout;
  - the tick-gated cache of rendered tab content in the browser store
    (`update_store`, `render_content`).

  The store is a record of the tick counter (the `'n_intervals'` key) and
  one entry per tab value. A renderer `render(tab, tick)` stands for the
  content a fresh instance of a tab class shows at a tick. Each update
  reports how many instances it built.
- **Tab data logic** (`Tabs`, tabs.dfy). It covers:
  - the per-instance lazy data cache, with a loader indexed by call number;
  - `init_graph`, which turns column specs into one series per spec;
  - the dropdown's distinct options;
  - the module-global `cache` keyed by label, and the row filter of
    `update_graph`;
  - the two-per-row layout of `MultiTab`;
  - the inherited `sync_type` defaults.
- **YAML configuration** (`Slug`, slug.dfy; `AutoDash`, autodash.dfy). It
  covers `to_slug` as its five-step pipeline, and `configure`,
  `configure_tab`, `ConfigureMethods` and `plot_map`. These work over an
  already-parsed YAML mapping, in which an absent key is `None`.
- **Plot-spec helpers** (`Plots`, plots.dfy; `LegacyPlots`,
  legacy_plots.dfy). They cover:
  - the SubPlot (type, mode) tables;
  - `generic_plot`, `filter_df` and `construct_table`;
  - `Graph`'s `init_data`, axis-title and title defaults, and `render_data`.

  They work over a small DataFrame model (`Frames`, frames.dfy):
  - column lookup with `KeyError`;
  - projection;
  - equality filter;
  - `Series.unique`.

Python exceptions are the `Error` values of `Wrappers` (wrappers.dfy), and
every error path of the modelled logic is an `Err` result. Data loaders are
total function parameters, so their own failures are not modelled (see
"## Left out"). rapid_dash/dashboards.py and
quick_dash/dashboards.py carry the same `Dashboard` logic. It is modelled
once, and the table below cites both files. rapid_dash imports its own
dash_tabs and dash_plots modules, which are not part of this model. The
quick_dash versions stand in for them here. The `Graph` class of
dash/data/dash_plots.py is the same code as quick_dash's, so
`Plots.NewGraph` and `Plots.RenderData` model both.

## Model

| member | source | states |
|---|---|---|
| Dashboard.FindTab | rapid_dash/dashboards.py:204-207 | returns the index of the first tab with the value, or None exactly when no tab has it |
| Dashboard.GetTabCls | rapid_dash/dashboards.py:194-207 | returns the first tab class whose value matches, and ValueError("Tab not found: ...") exactly when none does; the copy at quick_dash/dashboards.py:168-181 is the same code |
| Dashboard.CheckIfTabDynamic | rapid_dash/dashboards.py:164-180 | true iff some tab is dynamic and has the active value, so an unknown value gives false; the copy at quick_dash/dashboards.py:138-154 is the same code |
| Dashboard.IntervalDisabled | rapid_dash/dashboards.py:256-272 | the timer is disabled exactly when no tab with the active value is dynamic; the copy at quick_dash/dashboards.py:230-246 is the same code |
| Dashboard.TimerRunsOnlyForDynamicTabs | rapid_dash/dashboards.py:256-272 | the timer runs only for a known tab; a resolved dynamic tab runs it; with no dynamic tab it is always disabled |
| Dashboard.DefaultTabsKeepTimerOff | quick_dash/dash_tabs.py:18-20 | tabs declared without their own sync_type never enable the timer, for any selected value |
| Dashboard.GetDynamicTabContent | rapid_dash/dashboards.py:95-113 | ValueError exactly when no tab has the value; otherwise the FIRST tab with the value decides: the content it renders at the current tick when it is dynamic, AssertionError when it is not; the copy at quick_dash/dashboards.py:68-87 is the same code |
| Dashboard.DynamicContentMatchesTimer | rapid_dash/dashboards.py:109-113 | dynamic content succeeds only where the timer runs, and everywhere the timer runs when tab values are unique |
| Dashboard.MinutesToMilliseconds | rapid_dash/dashboards.py:115-126 | the result is a whole number of minutes in milliseconds: dividing by 60000 gives the input back with no remainder |
| Dashboard.SetUpdateInterval | rapid_dash/dashboards.py:128-137 | the timer keeps the configured id and starting tick count and fires every resync_interval_minutes times 60000 ms |
| Dashboard.WithDefaults | rapid_dash/dashboards.py:42-46 | a dashboard subclass keeps its own title, tabs value, tab classes and content id and inherits a 15-minute resync, a zero tick counter, the `interval-component` interval id and the `tab-data` store id |
| Dashboard.DefaultInterval | rapid_dash/dashboards.py:42-44 | the inherited 15-minute resync gives a 900000 ms interval starting from tick 0 |
| Dashboard.GetTabs | quick_dash/dashboards.py:156-166 | one header per tab class, in order, carrying its label and value |
| Dashboard.InitStore | quick_dash/dashboards.py:51 | the initial store holds only the counter, at 0 |
| Dashboard.InitLayout | quick_dash/dashboards.py:123-136 | IndexError exactly when there are no tabs; otherwise the first tab's value is selected and the store starts empty |
| Dashboard.InitialTabResolves | rapid_dash/dashboards.py:149-162 | the initially selected value resolves through the tab lookup to the first tab class |
| Dashboard.FillMissing | quick_dash/dashboards.py:196-200 | a tab already stored leaves the store as it is and builds nothing; otherwise ValueError("Tab not found: ...") exactly when no tab class has the value, and else the store gains that class's content rendered now under the tab, with the counter and every other entry unchanged and one instance built |
| Dashboard.RefreshOnTick | rapid_dash/dashboards.py:228-231 | nothing changes unless the tick is ahead of the stored counter; then ValueError exactly when the tab is unknown, and otherwise the tab's entry is re-rendered at that tick, the counter becomes the tick and one more instance is built |
| Dashboard.UpdateStore | rapid_dash/dashboards.py:209-233 | ValueError exactly when the tab is unknown and a render is due. The tab is then in the store, the counter is max(old, tick) and other entries are unchanged. A due render stores fresh content; otherwise the store is returned unchanged. The render count is the number of branches taken; the copy at quick_dash/dashboards.py:183-207 is the same code |
| Dashboard.UpdateStoreIdempotent | quick_dash/dashboards.py:196-207 | a repeated request at the same tick changes nothing and renders nothing |
| Dashboard.RenderContent | rapid_dash/dashboards.py:279-298 | succeeds exactly when update_store does and then returns update_store's store together with that store's entry for the tab; otherwise it raises update_store's ValueError("Tab not found: ...") |
| Dashboard.ContentFreshOnlyOnTick | quick_dash/dashboards.py:202-205 | a stored tab shows its stored content until the tick advances, then content rendered for the new tick |
| Dashboard.Serve | rapid_dash/dashboards.py:279-298 | an empty session keeps the store; a session that fails, fails with ValueError("Tab not found: ...") for a requested tab value that no tab class has |
| Dashboard.ServeInvariant | rapid_dash/dashboards.py:222-231 | over a session the counter is the largest tick seen and never decreases, and the store holds exactly the initial tabs plus the requested ones |
| Dashboard.MaxIntervalGrows | rapid_dash/dashboards.py:228-231 | the running counter is at least its start and at least every request's tick |
| Dashboard.TickGateExample | quick_dash/dashboards.py:196-207 | a stored tab is served from the store at tick 5 and re-rendered at tick 6 |
| Dashboard.FirstVisitAfterTickRendersTwice | rapid_dash/dashboards.py:222-231 | a first visit that arrives with a newer tick builds the tab twice |
| Tabs.Declare | quick_dash/dash_tabs.py:64 | a declared tab keeps its label and value, and is dynamic iff it sets sync_type "dynamic" itself |
| Tabs.DefaultSyncType | quick_dash/dash_tabs.py:17-20 | the sync_type read on a class that does not set it is never "dynamic": it is "static" for the SingleTAB families (the class attribute at line 64) and BaseTab's property object for MultiTab |
| Tabs.ReadData | quick_dash/dash_tabs.py:128-142 | with a value cached, the read returns it and loads nothing; otherwise it runs the loader once and caches the result |
| Tabs.ReadMany | quick_dash/dash_tabs.py:140-142 | n reads return n values, the first being what one read of data returns; no reads, or reads of cached data, leave the instance as it was; loads never go back |
| Tabs.WarmReadsNeverLoad | quick_dash/dash_tabs.py:140-142 | once data is cached, any number of reads returns it and leaves the instance unchanged |
| Tabs.ColdLoadOnce | quick_dash/dash_tabs.py:128-142 | when the first load returns data, any number of reads runs the loader exactly once and returns that data every time |
| Tabs.NoneIsNotCached | quick_dash/dash_tabs.py:140-141 | while the loader returns None, every read runs it again and nothing is cached |
| Tabs.NormaliseColumns | quick_dash/dash_tabs.py:186-187 | a single column spec becomes a one-element list; a list is kept |
| Tabs.BuildSeries | quick_dash/dash_tabs.py:189 | succeeds exactly when the spec has 'x' and 'y' and both name columns of the frame; otherwise KeyError on a missing 'x', then 'y', then the missing x column, then the missing y column; on success a series of the tab's plot class over those columns |
| Tabs.InitGraphSeries | quick_dash/dash_tabs.py:185-189 | one series per spec, in order, or exactly the error of the first failing spec |
| Tabs.InitGraph | quick_dash/dash_tabs.py:178-190 | succeeds exactly when every normalised spec has 'x' and 'y' naming columns of the frame; otherwise the first failing spec's error; on success a graph titled with the label with one trace per spec |
| Tabs.InitGraphShape | quick_dash/dash_tabs.py:178-190 | the graph is titled with the label, has one trace per spec drawn from that spec's x and y columns, and names its axes after the first spec |
| Tabs.Options | quick_dash/dash_tabs.py:231-234 | KeyError exactly when the column is missing; otherwise the column's distinct values, no duplicates, every value present, in first-occurrence order |
| Tabs.InitGlobalVars | quick_dash/dash_tabs.py:256-258 | stores the tab's data under its label, overwriting that key only and adding no other |
| Tabs.DropDownInitTab | quick_dash/dash_tabs.py:245-258 | the bare data_loader call uses up one load; the label's cache entry becomes what the data property then returns (the cached data if any, otherwise the loader's second call), and other labels are untouched |
| Tabs.DropDownInitLoadsTwice | quick_dash/dash_tabs.py:245-254 | on a fresh instance init_tab runs the loader twice and publishes the second load |
| Tabs.UpdateGraphRows | quick_dash/dash_tabs.py:296-298 | KeyError for a label never published, TypeError for published None, KeyError for a missing column; otherwise exactly the matching rows with their multiplicities, columns kept |
| Tabs.FilterReadsPublishedData | quick_dash/dash_tabs.py:14 | the filter reads exactly what init_global_vars published under the label, in original row order |
| Tabs.CacheLastWriterWins | quick_dash/dash_tabs.py:256-258 | two tabs with one label share a cache entry and the later publication wins |
| Tabs.Chunks | quick_dash/dash_tabs.py:363 | ceil(n/2) chunks that concatenate back to the input; every chunk but the last has 2 elements, and the last has 1 iff n is odd |
| Tabs.FlexRow | quick_dash/dash_tabs.py:325-345 | a row carries the flex style iff it does not have exactly one element |
| Tabs.GenerateMultiTab | quick_dash/dash_tabs.py:348-366 | ceil(n/2) rows of one or two children each, whose children read back the rendered tabs in order, a row flex-styled exactly when it does not hold a single child |
| Tabs.MultiTabLayout | quick_dash/dash_tabs.py:348-366 | ceil(n/2) rows reading back the rendered children in order; all rows but the last are styled pairs; the last is unstyled iff n is odd |
| Tabs.FiveChildMultiTab | quick_dash/dash_tabs.py:362-364 | five children give three rows: two styled pairs, then the fifth child alone |
| Slug.Lower | rapid_dash/dashboards.py:338 | same length, each ASCII capital replaced by its lower case |
| Slug.Hyphenate | rapid_dash/dashboards.py:341 | same length, each whitespace character replaced by '-' |
| Slug.DropDisallowed | rapid_dash/dashboards.py:344 | only a-z, 0-9, '-' and '_' remain, and a character occurs in the result exactly when it is an allowed character of the input |
| Slug.DropConcat | rapid_dash/dashboards.py:344 | dropping distributes over concatenation, so with the one-character case the result is the input's allowed characters in their order |
| Slug.Collapse | rapid_dash/dashboards.py:347 | no two separators are adjacent afterwards, the alphabet is kept and a leading non-separator stays first; a string of separators only becomes '-' when it has two or more and stays as it is (a lone '_' included) when it has one |
| Slug.CollapseConcat | rapid_dash/dashboards.py:347 | where a seam joins no two separators, collapsing the whole equals collapsing the two parts: every run is rewritten on its own |
| Slug.Strip | rapid_dash/dashboards.py:350 | the result is the slice of the input that starts after its leading separators and is followed by separators only, and it neither starts nor ends with '-' or '_'; an input of separators only gives the empty string |
| Slug.LeadingSeps | rapid_dash/dashboards.py:350 | counts exactly the separators at the front |
| Slug.TrailingSeps | rapid_dash/dashboards.py:350 | counts exactly the separators at the back |
| Slug.ToSlug | rapid_dash/dashboards.py:335-352 | the output uses only a-z, 0-9, '-' and '_', has no separator at either end and no two adjacent, and is no longer than the input |
| Slug.NoAdjacentConcat | rapid_dash/dashboards.py:347 | joining two separator-free-at-the-seam strings keeps separators apart |
| Slug.SliceKeepsShape | rapid_dash/dashboards.py:350 | stripping keeps the alphabet and the no-adjacent-separator shape |
| Slug.SlugFixpoint | rapid_dash/dashboards.py:335-352 | a string already in slug form is returned unchanged |
| Slug.DropFixpoint | rapid_dash/dashboards.py:344 | the character filter leaves slug-alphabet strings unchanged |
| Slug.CollapseFixpoint | rapid_dash/dashboards.py:347 | collapsing leaves strings without adjacent separators unchanged |
| Slug.ToSlugIdempotent | rapid_dash/dashboards.py:335-352 | applying to_slug twice equals applying it once |
| Slug.AlnumsConcat | rapid_dash/dashboards.py:344-350 | the letters and digits of a concatenation are those of the parts, in order |
| Slug.AlnumsOfSeps | rapid_dash/dashboards.py:347 | a run of separators holds no letters or digits |
| Slug.AlnumsHyphenate | rapid_dash/dashboards.py:341 | hyphenation keeps the letters and digits in order |
| Slug.AlnumsDrop | rapid_dash/dashboards.py:344 | the character filter keeps the letters and digits in order |
| Slug.AlnumsCollapse | rapid_dash/dashboards.py:347 | collapsing keeps the letters and digits in order |
| Slug.AlnumsStrip | rapid_dash/dashboards.py:350 | stripping keeps the letters and digits in order |
| Slug.ToSlugKeepsAlnums | rapid_dash/dashboards.py:335-352 | the slug keeps exactly the letters and digits of the lower-cased input, in order |
| Slug.LowerHyphenateFixpoint | rapid_dash/dashboards.py:338-341 | lower-casing and hyphenation leave slug-alphabet strings unchanged |
| Slug.StripFixpoint | rapid_dash/dashboards.py:350 | stripping leaves a string with no outer separator unchanged |
| Slug.AlnumsSkipPrefix | rapid_dash/dashboards.py:350 | dropping a leading run of separators keeps the letters and digits |
| Slug.AlnumsSkipSuffix | rapid_dash/dashboards.py:350 | dropping a trailing run of separators keeps the letters and digits |
| AutoDash.PlotMapTable | rapid_dash/dashboards.py:324-329 | plot_map has exactly the keys bar, line, scatter and scatter+line, reaches every plot class, and maps no two names to one class |
| AutoDash.InferConfigurationMethod | rapid_dash/dashboards.py:364-366 | succeeds exactly for chart, table, dropdown and multi; any other type name is an AttributeError |
| AutoDash.ConfigureChart | rapid_dash/dashboards.py:305-309 | KeyError for missing graph_columns, then for missing chart_type, then for a chart type outside plot_map; otherwise the columns and the mapped plot class |
| AutoDash.TabError | rapid_dash/dashboards.py:364-382 | KeyError('type') first; AttributeError for a type with no configure method; no error exactly for a chart entry whose chart part configures and that has a CSV path and a label |
| AutoDash.TabErrorCases | rapid_dash/dashboards.py:376-382 | after the type checks: NotImplementedError with the "not ready yet" message for table, dropdown and multi; a chart entry's own KeyError; then KeyError('csv_path'); then KeyError('label') |
| AutoDash.ConfigureTab | rapid_dash/dashboards.py:375-382 | fails exactly with the entry's error; otherwise carries the entry's columns, mapped plot class, CSV path and label, valued by the label's slug, which is a slug |
| AutoDash.ConfigureTabs | rapid_dash/dashboards.py:390 | one configured tab per entry in order, or exactly the error of the first failing entry |
| AutoDash.AsTabDecl | rapid_dash/dashboards.py:306 | a configured tab is a copy of the dashboard tab class: it keeps its label and value and inherits the static `sync_type`, so it is never dynamic |
| AutoDash.AsDashboard | rapid_dash/dashboards.py:323 | the YAML dashboard keeps its title, tabs value and content id, has one static tab class per configured tab with the same label and value, and inherits the 900000 ms interval and the `tab-data` store |
| AutoDash.DivId | rapid_dash/dashboards.py:389 | the content id derived from an ASCII title is a slug |
| AutoDash.Configure | rapid_dash/dashboards.py:384-392 | KeyError for a missing title, then for missing tabs, then the first failing entry's error. On success the header is the title, the tab-bar id is the title's slug and the content id is the slug of title+"-div", both slugs. There is one configured tab per entry, in order |
| AutoDash.ConfiguredTabIdentities | rapid_dash/dashboards.py:378-380 | every configured tab keeps its entry's label and is valued by that label's slug, which is a slug |
| AutoDash.YamlDashboardTimerOff | rapid_dash/dashboards.py:305-309 | any configured dashboard (every value `Configure` can produce) never runs its refresh timer, whatever tab is active, since its tabs are copies of a static tab class |
| AutoDash.YamlDashboardLayout | rapid_dash/dashboards.py:149-162 | a configured dashboard has a layout iff the YAML lists a tab; then the first label's slug is selected and the interval is 900000 ms |
| Plots.KindTable | quick_dash/dash_plots.py:7-9 | the (type, mode) pairs are ("bar", None), (None, "markers"), (None, "lines") and (None, "lines+markers"); each kind sets exactly one of the two, and the pair identifies the kind |
| Plots.NewSubPlot | quick_dash/dash_plots.py:17-68 | KeyError for a missing x column, then y; otherwise the trace has x and y drawn from the named columns, the kind's type and mode, and plot_name equal to y_name |
| Plots.FilterDf | quick_dash/dash_plots.py:75-76 | an empty column list gives the whole frame; otherwise the projection onto the listed columns in the listed order, or KeyError for a missing one |
| Plots.ConstructTable | quick_dash/dash_plots.py:75-88 | succeeds exactly when every listed column exists, and otherwise raises filter_df's KeyError for a listed column the frame lacks; on success one name/id descriptor per shown column, in order, and one record per row |
| Plots.TableCellsMatchFrame | quick_dash/dash_plots.py:82-88 | every cell the table shows is the frame's cell in that row and column |
| Plots.InitData | quick_dash/dash_plots.py:125-130 | a list is kept and any other argument is wrapped in a one-element list |
| Plots.FirstAxisNames | quick_dash/dash_plots.py:109-112 | names are found exactly when the first element exists and carries x_name and y_name |
| Plots.AxisTitles | quick_dash/dash_plots.py:107-122 | an explicit title wins; else the first element's x_name/y_name; else "x"/"y" |
| Plots.NewGraph | quick_dash/dash_plots.py:92-105 | the title defaults to the id, and the data and axis titles follow the rules above; the copy at dash/data/dash_plots.py:46-59 is the same code |
| Plots.RenderData | quick_dash/dash_plots.py:143-150 | same length and order; dicts pass through and every other element becomes its plot; the copy at dash/data/dash_plots.py:97-104 is the same code |
| Plots.GraphOfSubPlots | quick_dash/dash_plots.py:91-150 | a graph of SubPlots renders their trace dicts in order and takes its axis titles from the first |
| LegacyPlots.NewLegacySubPlot | dash/data/dash_plots.py:7-42 | the trace dict has exactly the keys x, y and type, with the named columns and the subclass's type |
| LegacyPlots.LegacyKindTable | dash/data/dash_plots.py:31-42 | BarPlot has type "bar", ScatterPlot has type "scatter", and the type identifies the subclass |
| LegacyPlots.LegacyGraphOfOneSubPlot | dash/data/dash_plots.py:61-84 | a single SubPlot is wrapped in a list; the title defaults to the id; axis titles come from its names unless given; it renders to its trace dict |
| Frames.Column | quick_dash/dash_plots.py:24-30 | KeyError exactly for a missing column; otherwise that column's value in every row |
| Frames.Select | quick_dash/dash_plots.py:76 | the projection succeeds iff all listed columns exist, and keeps every row's listed cells in the listed order |
| Frames.FilterEq | quick_dash/dash_tabs.py:298 | keeps only rows whose column equals the value, and every such row |
| Frames.FilterEqCounts | quick_dash/dash_tabs.py:298 | each matching row keeps its multiplicity and no other row survives |
| Frames.FilterEqAppend | quick_dash/dash_tabs.py:298 | the filter works row by row, so it distributes over concatenation and keeps order |
| Frames.DedupSpec | quick_dash/dash_tabs.py:234 | the reference de-duplication has no duplicates, the same elements, and first-occurrence order |
| Frames.Unique | quick_dash/dash_tabs.py:234 | the one-pass unique equals the reference de-duplication and has its three properties |

## Left out

- Dashboard.UpdateStore: requires the tab value not to be "n_intervals". The source keeps the counter and the tab entries in one dict, so such a tab would collide with the counter.
- Slug.ToSlug: defined for ASCII input only. Python's Unicode lower-casing and Unicode `\s` are not modelled. `AutoDash.Configure` therefore requires an ASCII title and ASCII labels.
- Plots.NewSubPlot: the `marker` and `line` style dicts are fixed constants and appear only as tags, not as their contents.
- Dashboard.GetDynamicTabContent: the result of an `assert` that fails is `AssertionError`. Running Python with assertions disabled is not modelled.
- The text of `KeyError` messages: a KeyError carries only the missing key.
- The Dash application wiring: `run`, callback registration and `run_server`. Only the callback bodies are modelled.
- Widget and figure construction (`html.*`, `dcc.*`, `go.Layout`, `dash_table.DataTable`, `px.line`). Rendered content is an abstract artifact produced by the `render` parameter. Layout margins, legend and hover settings are not modelled.
- `update_graph` beyond the row filter: it is called with the class itself, so its `px.line` call indexes the `graph_columns` property object that `DropDownTab` declares, which raises TypeError whenever the subclass does not set `graph_columns` itself (the example dropdown tab does not).
- Loader failures: the exceptions of `pd.read_csv`, and `DashboardTab`'s ValueError when `plot_function` or `csv_path` is left undefined (quick_dash/dash_tabs.py:151-158), are not modelled. A loader is a total function `nat -> Option<D>`.
- Dashboard.Serve: stops at the first failing request. In Dash a callback that raises leaves the client's store as it was and the session goes on, so `ServeInvariant` covers error-free sessions only.
- File and library I/O: `load_yaml`, `csv_loader` / `pd.read_csv` and `px.data.iris`. Loaders are function parameters. `Configure` takes an already-parsed YAML mapping whose values are strings, column specs and lists.
- `getattr` on names that are neither configure methods nor absent: dunder and metaclass attributes such as `__init__` or `register` are treated like any unknown name, as an AttributeError.
- The mutation of `AutoDash`'s class attributes in `configure`: the title, tab-bar id and content id are set before the tabs are read, even when a tab then fails. The model returns a configuration value instead.
- The `print` calls in `update_store`, `configure_tab`, `configure` and the property getters.
- Concurrency: the module-global `cache` is a single-threaded map, and races between requests are not modelled.
- The example tab and dashboard declarations (custom_tabs.py, both custom_dashboards.py) and the earliest prototype's dash/dash_tabs.py and dash/dashboards.py. Their only logic is a first-match lookup, which `Dashboard.GetTabCls` covers.
- `options` on a tab whose `data` is None raises TypeError; `Tabs.Options` takes the frame itself.

=== FILE: autodash.dfy ===
/** `AutoDash.configure` of rapid_dash/dashboards.py: turning a parsed YAML
    description into a dashboard whose tab classes are chart tabs.  A YAML
    mapping is modelled by a record whose fields are `None` when the key is
    absent. */
module AutoDash {
  import opened Wrappers
  import opened Slug
  import opened Plots
  import opened Tabs
  import Dashboard

  /** One entry of the `tabs` list. */
  datatype TabEntry = TabEntry(
    typeName: Option<string>,
    graphColumns: Option<GraphColumns>,
    chartType: Option<string>,
    csvPath: Option<string>,
    tabLabel: Option<string>)

  /** The top-level YAML mapping. */
  datatype DashEntry = DashEntry(title: Option<string>, tabs: Option<seq<TabEntry>>)

  /** `AutoDash.plot_map`. */
  const PlotMap: map<string, PlotKind> :=
    map["bar" := BarPlot, "line" := LinePlot, "scatter" := ScatterPlot, "scatter+line" := ScatterLinePlot]

  /** Every plot class has exactly one chart type name. */
  lemma PlotMapTable()
    ensures PlotMap.Keys == {"bar", "line", "scatter", "scatter+line"}
    ensures forall k: PlotKind :: k in PlotMap.Values
    ensures forall n1, n2 :: n1 in PlotMap && n2 in PlotMap && PlotMap[n1] == PlotMap[n2] ==> n1 == n2
  {
    forall k: PlotKind ensures k in PlotMap.Values {
      match k
      case BarPlot => assert PlotMap["bar"] == k;
      case LinePlot => assert PlotMap["line"] == k;
      case ScatterPlot => assert PlotMap["scatter"] == k;
      case ScatterLinePlot => assert PlotMap["scatter+line"] == k;
    }
  }

  /** The static methods of `ConfigureMethods`. */
  datatype ConfigureMethod = Chart | Table | Dropdown | Multi

  /** `infer_configuration_method`: `getattr` by the tab's type name. */
  function InferConfigurationMethod(typeName: string): (r: Result<ConfigureMethod>)
    ensures r.Ok? <==> typeName in {"chart", "table", "dropdown", "multi"}
    ensures r.Err? ==> r.error == AttributeError(typeName)
    ensures r == Ok(Chart) <==> typeName == "chart"
  {
    if typeName == "chart" then Ok(Chart)
    else if typeName == "table" then Ok(Table)
    else if typeName == "dropdown" then Ok(Dropdown)
    else if typeName == "multi" then Ok(Multi)
    else Err(AttributeError(typeName))
  }

  /** A configured tab class: a copy of `DashboardTab` with the YAML's
      columns, plot class, CSV path, label and slug value. */
  datatype ChartTabCfg = ChartTabCfg(graphColumns: GraphColumns, kind: PlotKind, csvPath: string, tabLabel: string, value: string)

  predicate LabelsAscii(tabs: seq<TabEntry>) {
    forall i :: 0 <= i < |tabs| && tabs[i].tabLabel.Some? ==> IsAscii(tabs[i].tabLabel.value)
  }

  /** `ConfigureMethods.chart`: the columns, then the chart type, which must
      name a plot class. */
  function ConfigureChart(tab: TabEntry): (r: Result<(GraphColumns, PlotKind)>)
    ensures tab.graphColumns.None? ==> r == Err(KeyError("graph_columns"))
    ensures tab.graphColumns.Some? && tab.chartType.None? ==> r == Err(KeyError("chart_type"))
    ensures tab.graphColumns.Some? && tab.chartType.Some? && tab.chartType.value !in PlotMap ==>
              r == Err(KeyError(tab.chartType.value))
    ensures r.Ok? <==> tab.graphColumns.Some? && tab.chartType.Some? && tab.chartType.value in PlotMap
    ensures r.Ok? ==> r.value == (tab.graphColumns.value, PlotMap[tab.chartType.value])
  {
    if tab.graphColumns.None? then Err(KeyError("graph_columns"))
    else if tab.chartType.None? then Err(KeyError("chart_type"))
    else if tab.chartType.value !in PlotMap then Err(KeyError(tab.chartType.value))
    else Ok((tab.graphColumns.value, PlotMap[tab.chartType.value]))
  }

  /** The message all three unimplemented configure methods raise with. */
  const NotReady := "Dropdown tab is not ready yet for auto dashboard creation."

  /** The exception `configure_tab` raises for an entry, if any: a missing
      type, a type with no configure method, one of the unimplemented
      methods, a bad chart entry, then a missing CSV path or label. */
  function TabError(tab: TabEntry): (e: Option<Error>)
    ensures tab.typeName.None? ==> e == Some(KeyError("type"))
    ensures tab.typeName.Some? && tab.typeName.value !in {"chart", "table", "dropdown", "multi"} ==>
              e == Some(AttributeError(tab.typeName.value))
    ensures e.None? <==> tab.typeName == Some("chart") && ConfigureChart(tab).Ok? && tab.csvPath.Some? && tab.tabLabel.Some?
  {
    if tab.typeName.None? then Some(KeyError("type"))
    else match InferConfigurationMethod(tab.typeName.value)
      case Err(e) => Some(e)
      case Ok(m) =>
        if m != Chart then Some(NotImplementedError(NotReady))
        else match ConfigureChart(tab)
          case Err(e) => Some(e)
          case Ok(_) =>
            if tab.csvPath.None? then Some(KeyError("csv_path"))
            else if tab.tabLabel.None? then Some(KeyError("label"))
            else None
  }

  /** The remaining exceptions of `configure_tab`, in the order the source
      raises them: the unimplemented methods, then a bad chart entry, then a
      missing CSV path, then a missing label. */
  lemma TabErrorCases(tab: TabEntry)
    ensures tab.typeName.Some? && tab.typeName.value in {"table", "dropdown", "multi"} ==>
              TabError(tab) == Some(NotImplementedError(NotReady))
    ensures tab.typeName == Some("chart") && ConfigureChart(tab).Err? ==> TabError(tab) == Some(ConfigureChart(tab).error)
    ensures tab.typeName == Some("chart") && ConfigureChart(tab).Ok? && tab.csvPath.None? ==>
              TabError(tab) == Some(KeyError("csv_path"))
    ensures tab.typeName == Some("chart") && ConfigureChart(tab).Ok? && tab.csvPath.Some? && tab.tabLabel.None? ==>
              TabError(tab) == Some(KeyError("label"))
  {
  }

  /** `configure_tab`: on success a copy of the chart tab class carrying the
      entry's columns, plot class, CSV path and label, valued by the label's
      slug. */
  function ConfigureTab(tab: TabEntry): (r: Result<ChartTabCfg>)
    requires tab.tabLabel.Some? ==> IsAscii(tab.tabLabel.value)
    ensures r.Err? <==> TabError(tab).Some?
    ensures r.Err? ==> r.error == TabError(tab).value
    ensures r.Ok? ==> r.value.tabLabel == tab.tabLabel.value && r.value.csvPath == tab.csvPath.value
    ensures r.Ok? ==> r.value.kind == PlotMap[tab.chartType.value] && r.value.graphColumns == tab.graphColumns.value
    ensures r.Ok? ==> r.value.value == ToSlug(tab.tabLabel.value) && IsSlug(r.value.value)
  {
    match TabError(tab)
    case Some(e) => Err(e)
    case None =>
      Ok(ChartTabCfg(tab.graphColumns.value, PlotMap[tab.chartType.value], tab.csvPath.value,
                     tab.tabLabel.value, ToSlug(tab.tabLabel.value)))
  }

  /** The list comprehension over `tabs`: every entry in order, or the error
      of the first one that fails. */
  function ConfigureTabs(tabs: seq<TabEntry>): (r: Result<seq<ChartTabCfg>>)
    requires LabelsAscii(tabs)
    ensures r.Ok? <==> forall i :: 0 <= i < |tabs| ==> TabError(tabs[i]).None?
    ensures r.Ok? ==> |r.value| == |tabs| && forall i :: 0 <= i < |tabs| ==> r.value[i] == ConfigureTab(tabs[i]).value
    ensures r.Err? ==> exists k :: (0 <= k < |tabs| && TabError(tabs[k]) == Some(r.error)
              && forall j :: 0 <= j < k ==> TabError(tabs[j]).None?)
  {
    if |tabs| == 0 then Ok([])
    else
      match TabError(tabs[0])
      case Some(e) => Err(e)
      case None =>
        LabelsAsciiTail(tabs);
        match ConfigureTabs(tabs[1..])
        case Err(e) =>
          FirstErrorShift(tabs, e);
          Err(e)
        case Ok(rest) =>
          ConfiguredShift(tabs, rest);
          Ok([ConfigureTab(tabs[0]).value] + rest)
  }

  /** The tail's configured tabs, behind the head's, are the whole list's. */
  lemma ConfiguredShift(tabs: seq<TabEntry>, rest: seq<ChartTabCfg>)
    requires |tabs| > 0 && LabelsAscii(tabs) && TabError(tabs[0]).None?
    requires |rest| == |tabs| - 1
    requires forall i :: 0 <= i < |tabs| - 1 ==> TabError(tabs[1..][i]).None?
    requires forall i :: 0 <= i < |tabs| - 1 ==> rest[i] == ConfigureTab(tabs[1..][i]).value
    ensures forall i :: 0 <= i < |tabs| ==> TabError(tabs[i]).None?
    ensures forall i :: 0 <= i < |tabs| ==> ([ConfigureTab(tabs[0]).value] + rest)[i] == ConfigureTab(tabs[i]).value
  {
    forall i | 1 <= i < |tabs| ensures TabError(tabs[i]).None? && rest[i - 1] == ConfigureTab(tabs[i]).value {
      assert tabs[i] == tabs[1..][i - 1];
    }
  }

  /** An error first raised by an entry of the tail is the first error of the
      whole list when the head configures. */
  lemma FirstErrorShift(tabs: seq<TabEntry>, e: Error)
    requires |tabs| > 0 && TabError(tabs[0]).None?
    requires exists k :: (0 <= k < |tabs| - 1 && TabError(tabs[1..][k]) == Some(e)
               && forall j :: 0 <= j < k ==> TabError(tabs[1..][j]).None?)
    ensures exists k :: (0 <= k < |tabs| && TabError(tabs[k]) == Some(e)
              && forall j :: 0 <= j < k ==> TabError(tabs[j]).None?)
  {
    var k :| 0 <= k < |tabs| - 1 && TabError(tabs[1..][k]) == Some(e)
      && forall j :: 0 <= j < k ==> TabError(tabs[1..][j]).None?;
    assert TabError(tabs[k + 1]) == Some(e);
    forall j | 0 <= j < k + 1 ensures TabError(tabs[j]).None? {
      if j > 0 {
        assert tabs[j] == tabs[1..][j - 1];
      }
    }
  }

  lemma LabelsAsciiTail(tabs: seq<TabEntry>)
    requires |tabs| > 0 && LabelsAscii(tabs)
    ensures LabelsAscii(tabs[1..])
  {
    forall i | 0 <= i < |tabs| - 1 && tabs[1..][i].tabLabel.Some? ensures IsAscii(tabs[1..][i].tabLabel.value) {
      assert tabs[1..][i] == tabs[i + 1];
    }
  }

  /** The class attributes `configure` sets. */
  datatype AutoDashCfg = AutoDashCfg(h1Title: string, tabsValue: string, divId: string, tabs: seq<ChartTabCfg>)

  /** The content id: `to_slug(title + "-div")`. */
  function DivId(title: string): (d: string)
    requires IsAscii(title)
    ensures IsSlug(d)
  {
    assert IsAscii(title + "-div") by {
      forall i | 0 <= i < |title + "-div"| ensures (title + "-div")[i] as int < 128 {
        if i < |title| {
          assert (title + "-div")[i] == title[i];
        }
      }
    }
    ToSlug(title + "-div")
  }

  /** `configure`: the title first (the header, then its slug as the tab-bar
      id and the slug of title + "-div" as the content id), then the tabs. */
  function Configure(y: DashEntry): (r: Result<AutoDashCfg>)
    requires y.title.Some? ==> IsAscii(y.title.value)
    requires y.tabs.Some? ==> LabelsAscii(y.tabs.value)
    ensures y.title.None? ==> r == Err(KeyError("title"))
    ensures y.title.Some? && y.tabs.None? ==> r == Err(KeyError("tabs"))
    ensures r.Ok? <==> y.title.Some? && y.tabs.Some? && ConfigureTabs(y.tabs.value).Ok?
    ensures y.title.Some? && y.tabs.Some? && r.Err? ==> exists k :: (0 <= k < |y.tabs.value|
              && TabError(y.tabs.value[k]) == Some(r.error)
              && forall j :: 0 <= j < k ==> TabError(y.tabs.value[j]).None?)
    ensures r.Ok? ==> r.value.h1Title == y.title.value
    ensures r.Ok? ==> r.value.tabsValue == ToSlug(y.title.value) && r.value.divId == DivId(y.title.value)
    ensures r.Ok? ==> IsSlug(r.value.tabsValue) && IsSlug(r.value.divId)
    ensures r.Ok? ==> |r.value.tabs| == |y.tabs.value|
    ensures r.Ok? ==> forall i :: 0 <= i < |r.value.tabs| ==> r.value.tabs[i] == ConfigureTab(y.tabs.value[i]).value
  {
    if y.title.None? then Err(KeyError("title"))
    else if y.tabs.None? then Err(KeyError("tabs"))
    else
      var tabs :- ConfigureTabs(y.tabs.value);
      Ok(AutoDashCfg(y.title.value, ToSlug(y.title.value), DivId(y.title.value), tabs))
  }

  /** The tab identities a configured dashboard gets: one tab per YAML entry,
      in order, labelled as the entry says and valued by the label's slug. */
  lemma ConfiguredTabIdentities(y: DashEntry)
    requires y.title.Some? ==> IsAscii(y.title.value)
    requires y.tabs.Some? ==> LabelsAscii(y.tabs.value)
    ensures Configure(y).Ok? ==> var c := Configure(y).value;
      forall i :: 0 <= i < |c.tabs| ==>
        && y.tabs.value[i].tabLabel == Some(c.tabs[i].tabLabel)
        && IsAscii(c.tabs[i].tabLabel)
        && c.tabs[i].value == ToSlug(c.tabs[i].tabLabel)
        && IsSlug(c.tabs[i].value)
  {
    if Configure(y).Ok? {
      var c := Configure(y).value;
      forall i | 0 <= i < |c.tabs|
        ensures y.tabs.value[i].tabLabel == Some(c.tabs[i].tabLabel) && IsAscii(c.tabs[i].tabLabel)
        ensures c.tabs[i].value == ToSlug(c.tabs[i].tabLabel)
      {
        assert c.tabs[i] == ConfigureTab(y.tabs.value[i]).value;
        assert TabError(y.tabs.value[i]).None?;
      }
    }
  }

  /** The tab class as the dashboard sees it: every configured tab is a copy
      of `DashboardTab` and so keeps the inherited `sync_type`. */
  function AsTabDecl(t: ChartTabCfg): (r: TabDecl)
    ensures r.tabLabel == t.tabLabel && r.value == t.value
    ensures r.syncType == "static" && !IsDynamic(r)
  {
    Declare(t.tabLabel, t.value, ChartTab, None)
  }

  /** The dashboard built from the configuration, with the inherited
      interval, counter and component ids. */
  function AsDashboard(c: AutoDashCfg): (r: Dashboard.DashboardCfg)
    ensures r.h1Title == c.h1Title && r.tabsValue == c.tabsValue && r.divId == c.divId
    ensures |r.tabs| == |c.tabs|
    ensures forall i :: 0 <= i < |r.tabs| ==>
      r.tabs[i].tabLabel == c.tabs[i].tabLabel && r.tabs[i].value == c.tabs[i].value && !IsDynamic(r.tabs[i])
    ensures Dashboard.SetUpdateInterval(r).periodMs == 900000 && r.storeId == "tab-data"
  {
    Dashboard.WithDefaults(c.h1Title, c.tabsValue,
      seq(|c.tabs|, i requires 0 <= i < |c.tabs| => AsTabDecl(c.tabs[i])), c.divId)
  }

  /** A dashboard built from YAML never runs its refresh timer, whatever tab
      is selected, since none of its tabs is dynamic. */
  lemma YamlDashboardTimerOff(c: AutoDashCfg, active: string)
    ensures Dashboard.IntervalDisabled(AsDashboard(c).tabs, active)
  {
  }

  /** A configured dashboard has a layout exactly when the YAML lists at
      least one tab; the first tab, under its slug, is then selected. */
  lemma YamlDashboardLayout(y: DashEntry)
    requires y.title.Some? ==> IsAscii(y.title.value)
    requires y.tabs.Some? ==> LabelsAscii(y.tabs.value)
    ensures Configure(y).Ok? ==> var layout := Dashboard.InitLayout(AsDashboard(Configure(y).value));
      && (layout.Ok? <==> |y.tabs.value| > 0)
      && (layout.Ok? ==> layout.value.selected == ToSlug(y.tabs.value[0].tabLabel.value))
      && (layout.Ok? ==> layout.value.interval.periodMs == 900000)
  {
  }
}

=== FILE: dashboard.dfy ===
/** The `Dashboard` base class of rapid_dash/dashboards.py and
    quick_dash/dashboards.py (the two carry the same logic): tab lookup, the
    freshness test that drives the refresh timer, the initial layout, and the
    tick-gated cache of rendered tab content kept in the browser store. */
module Dashboard {
  import opened Wrappers
  import opened Tabs

  // ---------------------------------------------------------------------------
  // Configuration and tab lookup
  // ---------------------------------------------------------------------------

  /** The class attributes a dashboard subclass sets or inherits. */
  datatype DashboardCfg = DashboardCfg(
    h1Title: string,
    tabsValue: string,
    tabs: seq<TabDecl>,
    divId: string,
    resyncMinutes: int,
    nIntervals: int,
    intervalId: string,
    storeId: string)

  /** A subclass that sets only the abstract attributes inherits a 15-minute
      resync, a zero tick counter and the fixed component ids. */
  function WithDefaults(h1Title: string, tabsValue: string, tabs: seq<TabDecl>, divId: string): (r: DashboardCfg)
    ensures r.h1Title == h1Title && r.tabsValue == tabsValue && r.tabs == tabs && r.divId == divId
    ensures r.resyncMinutes == 15 && r.nIntervals == 0
    ensures r.intervalId == "interval-component" && r.storeId == "tab-data"
  {
    DashboardCfg(h1Title, tabsValue, tabs, divId, 15, 0, "interval-component", "tab-data")
  }

  /** Index of the first tab whose `value` is `v`. */
  function FindTab(tabs: seq<TabDecl>, v: string): (r: Option<nat>)
    ensures r.None? <==> forall i :: 0 <= i < |tabs| ==> tabs[i].value != v
    ensures r.Some? ==> r.value < |tabs| && tabs[r.value].value == v
    ensures r.Some? ==> forall j :: 0 <= j < r.value ==> tabs[j].value != v
  {
    if |tabs| == 0 then None
    else if tabs[0].value == v then Some(0)
    else match FindTab(tabs[1..], v)
      case None => None
      case Some(k) => Some(k + 1)
  }

  function NotFound(v: string): Error {
    ValueError("Tab not found: " + v)
  }

  /** `get_tab_cls`: the first tab class with the given value. */
  function GetTabCls(tabs: seq<TabDecl>, v: string): (r: Result<TabDecl>)
    ensures r.Err? <==> forall i :: 0 <= i < |tabs| ==> tabs[i].value != v
    ensures r.Err? ==> r.error == NotFound(v)
    ensures r.Ok? ==> r.value in tabs && r.value.value == v
    ensures r.Ok? ==> exists k :: 0 <= k < |tabs| && tabs[k] == r.value && forall j :: 0 <= j < k ==> tabs[j].value != v
  {
    match FindTab(tabs, v)
    case None => Err(NotFound(v))
    case Some(k) => Ok(tabs[k])
  }

  /** `check_if_tab_dynamic`: scan the tabs for a dynamic one whose value is
      the active tab. */
  function CheckIfTabDynamic(tabs: seq<TabDecl>, active: string): (r: bool)
    ensures r <==> exists i :: 0 <= i < |tabs| && IsDynamic(tabs[i]) && tabs[i].value == active
  {
    if |tabs| == 0 then false
    else if IsDynamic(tabs[0]) && active == tabs[0].value then true
    else
      var rest := CheckIfTabDynamic(tabs[1..], active);
      assert rest ==> exists i :: 0 <= i < |tabs| && IsDynamic(tabs[i]) && tabs[i].value == active by {
        if rest {
          var i :| 0 <= i < |tabs| - 1 && IsDynamic(tabs[1..][i]) && tabs[1..][i].value == active;
          assert tabs[i + 1] == tabs[1..][i];
        }
      }
      rest
  }

  /** The `disabled` output of the interval callback: the timer is off
      unless some tab with the active value is dynamic. */
  function IntervalDisabled(tabs: seq<TabDecl>, active: string): (r: bool)
    ensures r <==> forall i :: 0 <= i < |tabs| && tabs[i].value == active ==> !IsDynamic(tabs[i])
  {
    !CheckIfTabDynamic(tabs, active)
  }

  /** The refresh timer runs exactly while a dynamic tab is selected: an
      unknown tab value and every static tab leave it disabled. */
  lemma TimerRunsOnlyForDynamicTabs(tabs: seq<TabDecl>, active: string)
    ensures !IntervalDisabled(tabs, active) ==> GetTabCls(tabs, active).Ok?
    ensures GetTabCls(tabs, active).Ok? && IsDynamic(GetTabCls(tabs, active).value) ==> !IntervalDisabled(tabs, active)
    ensures (forall i :: 0 <= i < |tabs| ==> !IsDynamic(tabs[i])) ==> IntervalDisabled(tabs, active)
  {
  }

  /** Tabs declared without their own `sync_type` never start the timer. */
  lemma DefaultTabsKeepTimerOff(labels: seq<string>, values: seq<string>, variants: seq<Variant>, active: string)
    requires |labels| == |values| == |variants|
    ensures var tabs := seq(|labels|, i requires 0 <= i < |labels| => Declare(labels[i], values[i], variants[i], None));
      IntervalDisabled(tabs, active)
  {
  }

  /** `get_dynamic_tab_content`: the first tab with the value must be
      dynamic (an `assert` in the source), and its content is rendered at the
      current tick. */
  function GetDynamicTabContent<A>(tabs: seq<TabDecl>, active: string, render: (TabDecl, int) -> A, now: int): (r: Result<A>)
    ensures r.Err? && r.error.ValueError? <==> forall i :: 0 <= i < |tabs| ==> tabs[i].value != active
    ensures r.Err? ==> r.error == NotFound(active) || r.error == AssertionError
    ensures r.Ok? ==> exists k :: 0 <= k < |tabs| && IsDynamic(tabs[k]) && tabs[k].value == active && r.value == render(tabs[k], now)
    ensures FindTab(tabs, active).Some? ==> (r.Ok? <==> IsDynamic(tabs[FindTab(tabs, active).value]))
    ensures r.Ok? ==> r.value == render(tabs[FindTab(tabs, active).value], now)
  {
    var t :- GetTabCls(tabs, active);
    if IsDynamic(t) then Ok(render(t, now)) else Err(AssertionError)
  }

  predicate UniqueValues(tabs: seq<TabDecl>) {
    forall i, j :: 0 <= i < j < |tabs| ==> tabs[i].value != tabs[j].value
  }

  /** The dynamic-content lookup succeeds only for tabs the timer runs for,
      and, when tab values are unique, for all of them. */
  lemma DynamicContentMatchesTimer<A>(tabs: seq<TabDecl>, active: string, render: (TabDecl, int) -> A, now: int)
    ensures GetDynamicTabContent(tabs, active, render, now).Ok? ==> !IntervalDisabled(tabs, active)
    ensures UniqueValues(tabs) && !IntervalDisabled(tabs, active) ==> GetDynamicTabContent(tabs, active, render, now).Ok?
  {
    if UniqueValues(tabs) && !IntervalDisabled(tabs, active) {
      var i :| 0 <= i < |tabs| && IsDynamic(tabs[i]) && tabs[i].value == active;
      var k := FindTab(tabs, active).value;
      assert k == i;
    }
  }

  // ---------------------------------------------------------------------------
  // Interval and layout
  // ---------------------------------------------------------------------------

  /** `minutes_to_milliseconds`. */
  function MinutesToMilliseconds(minutes: int): (ms: int)
    ensures ms / 60000 == minutes && ms % 60000 == 0
    ensures minutes >= 0 ==> ms >= 0
  {
    minutes * 60 * 1000
  }

  /** The `Interval` component: its id, period and starting tick count. */
  datatype IntervalCfg = IntervalCfg(id: string, periodMs: int, nIntervals: int)

  /** `set_update_interval`: the timer fires every `resync_minutes` minutes,
      starting from the configured tick count. */
  function SetUpdateInterval(cfg: DashboardCfg): (r: IntervalCfg)
    ensures r.id == cfg.intervalId && r.nIntervals == cfg.nIntervals
    ensures r.periodMs == cfg.resyncMinutes * 60000
  {
    IntervalCfg(cfg.intervalId, MinutesToMilliseconds(cfg.resyncMinutes), cfg.nIntervals)
  }

  /** The default dashboard refreshes every 900000 ms, starting from tick 0. */
  lemma DefaultInterval(h1Title: string, tabsValue: string, tabs: seq<TabDecl>, divId: string)
    ensures SetUpdateInterval(WithDefaults(h1Title, tabsValue, tabs, divId)) == IntervalCfg("interval-component", 900000, 0)
  {
  }

  /** One header of the `Tabs` component. */
  datatype TabHeader = TabHeader(caption: string, value: string)

  /** `get_tabs`: one header per tab class, in order. */
  function GetTabs(tabs: seq<TabDecl>): (hs: seq<TabHeader>)
    ensures |hs| == |tabs|
    ensures forall i :: 0 <= i < |tabs| ==> hs[i].caption == tabs[i].tabLabel && hs[i].value == tabs[i].value
  {
    seq(|tabs|, i requires 0 <= i < |tabs| => TabHeader(tabs[i].tabLabel, tabs[i].value))
  }

  /** The page: the title, the tab bar with its selected value, the timer,
      the store with its initial data, and the content div. */
  datatype Layout = Layout(
    h1: string,
    tabsId: string,
    selected: string,
    headers: seq<TabHeader>,
    interval: IntervalCfg,
    storeId: string,
    storeData: Store<string>,
    divId: string)

  /** The browser-side store: the tick count seen so far (the
      `'n_intervals'` key) and the rendered content per tab value. */
  datatype Store<A> = Store(nIntervals: int, entries: map<string, A>)

  /** `init_store_data`: only the tick counter, at 0. */
  function InitStore<A>(): (s: Store<A>)
    ensures s.nIntervals == 0 && s.entries == map[]
  {
    Store(0, map[])
  }

  /** `init_layout`: the first header is selected, so a dashboard without
      tabs fails with `IndexError`. */
  function InitLayout(cfg: DashboardCfg): (r: Result<Layout>)
    ensures r.Err? <==> |cfg.tabs| == 0
    ensures r.Err? ==> r.error == IndexError
    ensures r.Ok? ==> r.value.selected == cfg.tabs[0].value && r.value.headers == GetTabs(cfg.tabs)
    ensures r.Ok? ==> r.value.storeData == InitStore()
  {
    var headers := GetTabs(cfg.tabs);
    if |headers| == 0 then Err(IndexError)
    else Ok(Layout(cfg.h1Title, cfg.tabsValue, headers[0].value, headers, SetUpdateInterval(cfg),
                   cfg.storeId, InitStore(), cfg.divId))
  }

  /** The selected tab always resolves, to the first tab class. */
  lemma InitialTabResolves(cfg: DashboardCfg)
    requires InitLayout(cfg).Ok?
    ensures GetTabCls(cfg.tabs, InitLayout(cfg).value.selected) == Ok(cfg.tabs[0])
  {
  }

  // ---------------------------------------------------------------------------
  // update_store and render_content
  // ---------------------------------------------------------------------------

  /** The outcome of one `update_store` call: the new store and how many tab
      instances were built (each one renders its content). */
  datatype Update<A> = Update(store: Store<A>, renders: nat)

  /** First branch: a tab not yet in the store is rendered and stored. */
  function FillMissing<A>(tabs: seq<TabDecl>, tab: string, store: Store<A>, render: (TabDecl, int) -> A, now: int)
    : (r: Result<Update<A>>)
    ensures r.Ok? ==> tab in r.value.store.entries && r.value.store.nIntervals == store.nIntervals
    ensures r.Err? <==> tab !in store.entries && FindTab(tabs, tab).None?
    ensures r.Err? ==> r.error == NotFound(tab)
    ensures tab in store.entries ==> r == Ok(Update(store, 0))
    ensures r.Ok? && tab !in store.entries ==>
              r.value == Update(Store(store.nIntervals, store.entries[tab := render(tabs[FindTab(tabs, tab).value], now)]), 1)
  {
    if tab in store.entries then Ok(Update(store, 0))
    else
      var t :- GetTabCls(tabs, tab);
      Ok(Update(Store(store.nIntervals, store.entries[tab := render(t, now)]), 1))
  }

  /** Second branch: when the tick count has advanced, the tab is rendered
      again and the new count recorded. */
  function RefreshOnTick<A>(tabs: seq<TabDecl>, tab: string, u: Update<A>, render: (TabDecl, int) -> A, interval: int)
    : (r: Result<Update<A>>)
    ensures interval <= u.store.nIntervals ==> r == Ok(u)
    ensures r.Err? <==> interval > u.store.nIntervals && FindTab(tabs, tab).None?
    ensures r.Err? ==> r.error == NotFound(tab)
    ensures r.Ok? ==> r.value.store.nIntervals == Max(u.store.nIntervals, interval)
    ensures r.Ok? && interval > u.store.nIntervals ==>
              && r.value.store.entries == u.store.entries[tab := render(tabs[FindTab(tabs, tab).value], interval)]
              && r.value.renders == u.renders + 1
  {
    if interval > u.store.nIntervals then
      var t :- GetTabCls(tabs, tab);
      Ok(Update(Store(interval, u.store.entries[tab := render(t, interval)]), u.renders + 1))
    else Ok(u)
  }

  /** `update_store`.  `render(t, n)` is the content a fresh instance of tab
      class `t` shows at tick `n`.  A tab value equal to the counter's own key
      is excluded, since the source keeps both in one dict. */
  function UpdateStore<A>(tabs: seq<TabDecl>, tab: string, store: Store<A>, interval: int, render: (TabDecl, int) -> A)
    : (r: Result<Update<A>>)
    requires tab != "n_intervals"
    ensures r.Err? <==> FindTab(tabs, tab).None? && (tab !in store.entries || interval > store.nIntervals)
    ensures r.Err? ==> r.error == NotFound(tab)
    ensures r.Ok? ==> tab in r.value.store.entries
    ensures r.Ok? ==> r.value.store.nIntervals == Max(store.nIntervals, interval)
    ensures r.Ok? ==> r.value.store.entries.Keys == store.entries.Keys + {tab}
    ensures r.Ok? ==> forall k :: k in store.entries && k != tab ==> r.value.store.entries[k] == store.entries[k]
    ensures r.Ok? && (tab !in store.entries || interval > store.nIntervals) ==>
              r.value.store.entries[tab] == render(tabs[FindTab(tabs, tab).value], interval)
    ensures r.Ok? && tab in store.entries && interval <= store.nIntervals ==> r.value == Update(store, 0)
    ensures r.Ok? ==> r.value.renders == (if tab in store.entries then 0 else 1) + (if interval > store.nIntervals then 1 else 0)
  {
    var u :- FillMissing(tabs, tab, store, render, interval);
    RefreshOnTick(tabs, tab, u, render, interval)
  }

  /** A repeated request at the same tick is served from the store. */
  lemma UpdateStoreIdempotent<A>(tabs: seq<TabDecl>, tab: string, store: Store<A>, interval: int, render: (TabDecl, int) -> A)
    requires tab != "n_intervals"
    requires UpdateStore(tabs, tab, store, interval, render).Ok?
    ensures var s1 := UpdateStore(tabs, tab, store, interval, render).value.store;
      UpdateStore(tabs, tab, s1, interval, render) == Ok(Update(s1, 0))
  {
  }

  /** `render_content`: update the store, then show the selected tab's entry. */
  function RenderContent<A>(tabs: seq<TabDecl>, tab: string, store: Store<A>, interval: int, render: (TabDecl, int) -> A)
    : (r: Result<(A, Store<A>)>)
    requires tab != "n_intervals"
    ensures r.Ok? ==> tab in r.value.1.entries && r.value.0 == r.value.1.entries[tab]
    ensures r.Ok? <==> UpdateStore(tabs, tab, store, interval, render).Ok?
    ensures r.Ok? ==> r.value.1 == UpdateStore(tabs, tab, store, interval, render).value.store
    ensures r.Err? ==> r.error == UpdateStore(tabs, tab, store, interval, render).error
    ensures r.Err? ==> r.error == NotFound(tab)
  {
    var u :- UpdateStore(tabs, tab, store, interval, render);
    Ok((u.store.entries[tab], u.store))
  }

  /** Content is stale until the tick advances: with the counter not ahead,
      a stored tab shows its stored content whatever the tab would render
      now; once the counter is ahead it shows fresh content for that tick. */
  lemma ContentFreshOnlyOnTick<A>(tabs: seq<TabDecl>, tab: string, store: Store<A>, interval: int, render: (TabDecl, int) -> A)
    requires tab != "n_intervals" && tab in store.entries
    requires FindTab(tabs, tab).Some?
    ensures interval <= store.nIntervals ==> RenderContent(tabs, tab, store, interval, render) == Ok((store.entries[tab], store))
    ensures interval > store.nIntervals ==>
              RenderContent(tabs, tab, store, interval, render).Ok?
              && RenderContent(tabs, tab, store, interval, render).value.0 == render(tabs[FindTab(tabs, tab).value], interval)
  {
  }

  // ---------------------------------------------------------------------------
  // A session: a sequence of render_content requests
  // ---------------------------------------------------------------------------

  datatype Request = Request(tab: string, interval: int)

  predicate NoCounterKey(reqs: seq<Request>) {
    forall i :: 0 <= i < |reqs| ==> reqs[i].tab != "n_intervals"
  }

  function MaxInterval(start: int, reqs: seq<Request>): int
    decreases |reqs|
  {
    if |reqs| == 0 then start else MaxInterval(Max(start, reqs[0].interval), reqs[1..])
  }

  function RequestedTabs(reqs: seq<Request>): set<string> {
    set i | 0 <= i < |reqs| :: reqs[i].tab
  }

  /** The store after serving requests in order, or the first error.  In
      Dash a callback that raises leaves the client's store as it was and the
      session goes on; this function stops at the first error instead, so
      what it says (and `ServeInvariant`) covers error-free sessions only. */
  function Serve<A>(tabs: seq<TabDecl>, store: Store<A>, reqs: seq<Request>, render: (TabDecl, int) -> A): (r: Result<Store<A>>)
    requires NoCounterKey(reqs)
    ensures |reqs| == 0 ==> r == Ok(store)
    ensures r.Err? ==> exists i :: 0 <= i < |reqs| && r.error == NotFound(reqs[i].tab) && FindTab(tabs, reqs[i].tab).None?
    decreases |reqs|
  {
    if |reqs| == 0 then Ok(store)
    else
      var u :- UpdateStore(tabs, reqs[0].tab, store, reqs[0].interval, render);
      Serve(tabs, u.store, reqs[1..], render)
  }

  /** Over a session the counter only grows, to the largest tick seen, and
      the store holds exactly the tabs it started with plus those requested. */
  lemma {:induction false} ServeInvariant<A>(tabs: seq<TabDecl>, store: Store<A>, reqs: seq<Request>, render: (TabDecl, int) -> A)
    requires NoCounterKey(reqs)
    requires Serve(tabs, store, reqs, render).Ok?
    ensures Serve(tabs, store, reqs, render).value.nIntervals == MaxInterval(store.nIntervals, reqs)
    ensures Serve(tabs, store, reqs, render).value.nIntervals >= store.nIntervals
    ensures Serve(tabs, store, reqs, render).value.entries.Keys == store.entries.Keys + RequestedTabs(reqs)
    decreases |reqs|
  {
    if |reqs| > 0 {
      var u := UpdateStore(tabs, reqs[0].tab, store, reqs[0].interval, render).value;
      ServeInvariant(tabs, u.store, reqs[1..], render);
      MaxIntervalGrows(u.store.nIntervals, reqs[1..]);
      RequestedTabsCons(reqs);
    }
  }

  lemma RequestedTabsCons(reqs: seq<Request>)
    requires |reqs| > 0
    ensures RequestedTabs(reqs) == {reqs[0].tab} + RequestedTabs(reqs[1..])
  {
    forall t | t in RequestedTabs(reqs) ensures t in {reqs[0].tab} + RequestedTabs(reqs[1..]) {
      var i :| 0 <= i < |reqs| && reqs[i].tab == t;
      if i > 0 {
        assert reqs[1..][i - 1].tab == t;
      }
    }
    forall t | t in RequestedTabs(reqs[1..]) ensures t in RequestedTabs(reqs) {
      var i :| 0 <= i < |reqs| - 1 && reqs[1..][i].tab == t;
      assert reqs[i + 1].tab == t;
    }
  }

  lemma {:induction false} MaxIntervalGrows(start: int, reqs: seq<Request>)
    ensures MaxInterval(start, reqs) >= start
    ensures forall i :: 0 <= i < |reqs| ==> MaxInterval(start, reqs) >= reqs[i].interval
    decreases |reqs|
  {
    if |reqs| > 0 {
      MaxIntervalGrows(Max(start, reqs[0].interval), reqs[1..]);
      forall i | 1 <= i < |reqs| ensures MaxInterval(start, reqs) >= reqs[i].interval {
        assert reqs[i] == reqs[1..][i - 1];
      }
    }
  }

  /** A tick-gated example: a stored tab is served from the store at tick 5
      and re-rendered at tick 6. */
  lemma TickGateExample(render: (TabDecl, int) -> string)
    ensures var tabs := [TabDecl("Sales", "sales", "dynamic")];
      var store := Store(5, map["sales" := "old"]);
      && RenderContent(tabs, "sales", store, 5, render) == Ok(("old", store))
      && RenderContent(tabs, "sales", store, 6, render)
         == Ok((render(tabs[0], 6), Store(6, map["sales" := render(tabs[0], 6)])))
  {
    var tabs := [TabDecl("Sales", "sales", "dynamic")];
    var store := Store(5, map["sales" := "old"]);
    assert FindTab(tabs, "sales") == Some(0);
    assert UpdateStore(tabs, "sales", store, 5, render) == Ok(Update(store, 0));
    var rendered := render(tabs[0], 6);
    assert store.entries["sales" := rendered] == map["sales" := rendered];
    assert UpdateStore(tabs, "sales", store, 6, render) == Ok(Update(Store(6, map["sales" := rendered]), 1));
  }

  /** The first request of a session after a tick, on an empty store, builds
      the tab twice. */
  lemma FirstVisitAfterTickRendersTwice<A>(tabs: seq<TabDecl>, tab: string, render: (TabDecl, int) -> A)
    requires tab != "n_intervals" && FindTab(tabs, tab).Some?
    ensures UpdateStore(tabs, tab, InitStore(), 1, render).Ok?
    ensures UpdateStore(tabs, tab, InitStore(), 1, render).value.renders == 2
  {
  }
}

=== FILE: frames.dfy ===
/** The few pandas DataFrame operations the tabs and plots rely on:
    reading a column, projecting onto a column list, keeping the rows whose
    column equals a value, and the distinct values of a column. */
module Frames {
  import opened Wrappers

  /** A DataFrame: ordered column names and one map per row. */
  datatype Frame<V> = Frame(columns: seq<string>, rows: seq<map<string, V>>)

  function ColumnSet(columns: seq<string>): set<string> {
    set c | c in columns
  }

  /** Every row holds a value for exactly the frame's columns. */
  predicate WellFormed<V>(f: Frame<V>) {
    forall i :: 0 <= i < |f.rows| ==> f.rows[i].Keys == ColumnSet(f.columns)
  }

  /** `df[name]` for a column that exists. */
  function ColumnValues<V>(f: Frame<V>, name: string): (r: seq<V>)
    requires WellFormed(f) && name in f.columns
    ensures |r| == |f.rows|
  {
    seq(|f.rows|, i requires 0 <= i < |f.rows| => f.rows[i][name])
  }

  /** `df[name]`: a missing column raises `KeyError`. */
  function Column<V>(f: Frame<V>, name: string): (r: Result<seq<V>>)
    requires WellFormed(f)
    ensures r.Ok? <==> name in f.columns
    ensures r.Err? ==> r.error == KeyError(name)
    ensures r.Ok? ==> |r.value| == |f.rows|
    ensures r.Ok? ==> forall i :: 0 <= i < |f.rows| ==> r.value[i] == f.rows[i][name]
  {
    if name in f.columns then Ok(ColumnValues(f, name)) else Err(KeyError(name))
  }

  /** The first listed column the frame does not have. */
  function FirstMissing(cols: seq<string>, columns: seq<string>): (r: Option<string>)
    ensures r.None? <==> forall c :: c in cols ==> c in columns
    ensures r.Some? ==> r.value in cols && r.value !in columns
  {
    if |cols| == 0 then None
    else if cols[0] !in columns then Some(cols[0])
    else FirstMissing(cols[1..], columns)
  }

  function Restrict<V>(row: map<string, V>, keys: set<string>): map<string, V> {
    map k | k in keys && k in row :: row[k]
  }

  /** `df[cols]` for a list of column names: the listed columns in the listed
      order, every row kept. */
  function Select<V>(f: Frame<V>, cols: seq<string>): (r: Result<Frame<V>>)
    requires WellFormed(f)
    ensures r.Ok? <==> forall c :: c in cols ==> c in f.columns
    ensures r.Err? ==> r.error.KeyError? && r.error.key in cols && r.error.key !in f.columns
    ensures r.Ok? ==> WellFormed(r.value) && r.value.columns == cols && |r.value.rows| == |f.rows|
    ensures r.Ok? ==> forall i, c :: 0 <= i < |f.rows| && c in cols ==> r.value.rows[i][c] == f.rows[i][c]
  {
    match FirstMissing(cols, f.columns)
    case Some(c) => Err(KeyError(c))
    case None =>
      var keys := ColumnSet(cols);
      Ok(Frame(cols, seq(|f.rows|, i requires 0 <= i < |f.rows| => Restrict(f.rows[i], keys))))
  }

  predicate Matches<V(==)>(row: map<string, V>, col: string, value: V) {
    col in row && row[col] == value
  }

  /** `df[df[col] == value]` on the row sequence. */
  function FilterEq<V(==,!new)>(rows: seq<map<string, V>>, col: string, value: V): (r: seq<map<string, V>>)
    ensures |r| <= |rows|
    ensures forall i :: 0 <= i < |r| ==> Matches(r[i], col, value)
    ensures forall i :: 0 <= i < |rows| && Matches(rows[i], col, value) ==> rows[i] in r
  {
    if |rows| == 0 then []
    else
      (if Matches(rows[0], col, value) then [rows[0]] else []) + FilterEq(rows[1..], col, value)
  }

  /** Each row occurs in the filtered rows exactly as often as in the input
      when it matches, and never otherwise. */
  lemma {:induction false} FilterEqCounts<V(!new)>(rows: seq<map<string, V>>, col: string, value: V)
    ensures forall row :: multiset(FilterEq(rows, col, value))[row] ==
              if Matches(row, col, value) then multiset(rows)[row] else 0
  {
    if |rows| > 0 {
      FilterEqCounts(rows[1..], col, value);
      assert rows == [rows[0]] + rows[1..];
      var h := if Matches(rows[0], col, value) then [rows[0]] else [];
      assert multiset(FilterEq(rows, col, value)) == multiset(h) + multiset(FilterEq(rows[1..], col, value));
    }
  }

  /** The filter works row by row, so it keeps the input order. */
  lemma {:induction false} FilterEqAppend<V(!new)>(a: seq<map<string, V>>, b: seq<map<string, V>>, col: string, value: V)
    ensures FilterEq(a + b, col, value) == FilterEq(a, col, value) + FilterEq(b, col, value)
  {
    if |a| == 0 {
      assert a + b == b;
    } else {
      var h := if Matches(a[0], col, value) then [a[0]] else [];
      assert (a + b)[0] == a[0];
      assert (a + b)[1..] == a[1..] + b;
      assert FilterEq(a + b, col, value) == h + FilterEq(a[1..] + b, col, value);
      assert FilterEq(a, col, value) == h + FilterEq(a[1..], col, value);
      FilterEqAppend(a[1..], b, col, value);
    }
  }

  // ---------------------------------------------------------------------------
  // Distinct values in first-occurrence order (pandas `Series.unique`)
  // ---------------------------------------------------------------------------

  predicate NoDuplicates<V(==)>(xs: seq<V>) {
    forall i, j :: 0 <= i < j < |xs| ==> xs[i] != xs[j]
  }

  /** Index of the first occurrence of `x`. */
  function FirstIndex<V(==)>(xs: seq<V>, x: V): (n: nat)
    requires x in xs
    ensures n < |xs| && xs[n] == x
    ensures forall j :: 0 <= j < n ==> xs[j] != x
  {
    if xs[0] == x then 0 else 1 + FirstIndex(xs[1..], x)
  }

  /** Reference definition: scan left to right, keep a value the first time it
      is seen. */
  function Dedup<V(==)>(xs: seq<V>): seq<V> {
    if |xs| == 0 then []
    else
      var p := Dedup(xs[..|xs| - 1]);
      if xs[|xs| - 1] in p then p else p + [xs[|xs| - 1]]
  }

  lemma FirstIndexExtend<V(!new)>(p: seq<V>, a: V, y: V)
    requires y in p || y == a
    ensures y in p ==> FirstIndex(p + [a], y) == FirstIndex(p, y)
    ensures y !in p ==> FirstIndex(p + [a], y) == |p|
  {
    var q := p + [a];
    var k := FirstIndex(q, y);
    if y in p {
      var k0 := FirstIndex(p, y);
      assert q[k0] == y;
    }
  }

  /** `Dedup` lists every value of `xs` once, in order of first occurrence. */
  lemma {:induction false} DedupSpec<V(!new)>(xs: seq<V>)
    ensures NoDuplicates(Dedup(xs))
    ensures forall x :: x in Dedup(xs) <==> x in xs
    ensures forall i, j :: 0 <= i < j < |Dedup(xs)| ==>
              FirstIndex(xs, Dedup(xs)[i]) < FirstIndex(xs, Dedup(xs)[j])
  {
    if |xs| > 0 {
      var p := xs[..|xs| - 1];
      var a := xs[|xs| - 1];
      assert xs == p + [a];
      DedupSpec(p);
      var d := Dedup(p);
      assert forall x :: x in d <==> x in p;
      forall x | x in d
        ensures x in p && FirstIndex(xs, x) == FirstIndex(p, x)
      {
        assert x in p;
        FirstIndexExtend(p, a, x);
      }
      if a !in d {
        FirstIndexExtend(p, a, a);
        var e := d + [a];
        forall i, j | 0 <= i < j < |e|
          ensures FirstIndex(xs, e[i]) < FirstIndex(xs, e[j])
        {
          if j < |d| {
            assert e[i] == d[i] && e[j] == d[j];
          } else {
            assert e[i] == d[i];
          }
        }
      }
    }
  }

  /** `Series.unique()`: one pass with a set of values already seen. */
  method Unique<V(==,!new)>(xs: seq<V>) returns (r: seq<V>)
    ensures r == Dedup(xs)
    ensures NoDuplicates(r)
    ensures forall x :: x in r <==> x in xs
    ensures forall i, j :: 0 <= i < j < |r| ==> FirstIndex(xs, r[i]) < FirstIndex(xs, r[j])
  {
    r := [];
    var seen: set<V> := {};
    for k := 0 to |xs|
      invariant r == Dedup(xs[..k])
      invariant forall x :: x in seen <==> x in r
    {
      assert xs[..k + 1][..k] == xs[..k];
      if xs[k] !in seen {
        r := r + [xs[k]];
        seen := seen + {xs[k]};
      }
    }
    assert xs[..|xs|] == xs;
    DedupSpec(xs);
  }
}

=== FILE: legacy_plots.dfy ===
/** The older plot helpers of dash/data/dash_plots.py.  Its SubPlot family
    has two members and builds a three-key trace dict; its Graph class is the
    same code as the later one and is modelled by `Plots.NewGraph` and
    `Plots.RenderData`. */
module LegacyPlots {
  import opened Wrappers
  import opened Frames
  import Plots

  datatype LegacyKind = LegacyBar | LegacyScatter

  /** The `plot_type` each subclass sets after `SubPlot.__init__`. */
  function LegacyType(k: LegacyKind): string {
    match k
    case LegacyBar => "bar"
    case LegacyScatter => "scatter"
  }

  datatype LegacyField<V> = Values(values: seq<V>) | TypeTag(tag: string)

  datatype LegacySubPlot<V> = LegacySubPlot(xName: string, yName: string, plotName: string, plot: map<string, LegacyField<V>>)

  /** Constructing `BarPlot` or `ScatterPlot`: the trace dict has exactly the
      keys x, y and type, and the type names the subclass. */
  function NewLegacySubPlot<V>(kind: LegacyKind, df: Frame<V>, xName: string, yName: string): (r: Result<LegacySubPlot<V>>)
    requires WellFormed(df)
    ensures r.Ok? <==> xName in df.columns && yName in df.columns
    ensures xName !in df.columns ==> r == Err(KeyError(xName))
    ensures xName in df.columns && yName !in df.columns ==> r == Err(KeyError(yName))
    ensures r.Ok? ==> r.value.xName == xName && r.value.yName == yName && r.value.plotName == yName
    ensures r.Ok? ==> r.value.plot.Keys == {"x", "y", "type"}
    ensures r.Ok? ==> r.value.plot["x"] == Values(ColumnValues(df, xName))
    ensures r.Ok? ==> r.value.plot["y"] == Values(ColumnValues(df, yName))
    ensures r.Ok? ==> r.value.plot["type"] == TypeTag(LegacyType(kind))
  {
    var xs :- Column(df, xName);
    var ys :- Column(df, yName);
    Ok(LegacySubPlot(xName, yName, yName, map["x" := Values(xs), "y" := Values(ys), "type" := TypeTag(LegacyType(kind))]))
  }

  /** The two subclasses are told apart by their type tag alone. */
  lemma LegacyKindTable()
    ensures LegacyType(LegacyBar) == "bar" && LegacyType(LegacyScatter) == "scatter"
    ensures forall k1, k2 :: LegacyType(k1) == LegacyType(k2) ==> k1 == k2
  {
  }

  function AsLegacySeries<V>(sp: LegacySubPlot<V>): Plots.Series<map<string, LegacyField<V>>> {
    Plots.PlotSeries(Some(Plots.AxisNames(sp.xName, sp.yName)), sp.plot)
  }

  /** A legacy Graph over one SubPlot passed without a list: `init_data`
      wraps it, the title defaults to the id, the axes take the SubPlot's
      column names unless given, and the figure data is its trace dict. */
  lemma LegacyGraphOfOneSubPlot<V>(id: string, sp: LegacySubPlot<V>, xTitle: Option<string>)
    ensures var g := Plots.NewGraph(id, Plots.OneArg(AsLegacySeries(sp)), None, xTitle, None);
      && g.title == id
      && g.xTitle == xTitle.GetOr(sp.xName)
      && g.yTitle == sp.yName
      && Plots.RenderData(g.data) == [sp.plot]
  {
  }
}

=== FILE: plots.dfy ===
/** The plot-specification helpers of quick_dash/dash_plots.py: the SubPlot
    family (one plotly trace dict per x/y column pair), DataTable (a column
    projection rendered as records) and the normalisation and defaulting
    rules of Graph.  The plotly and Dash objects these feed are left opaque;
    a `Graph` here records the values the Python passes on to them. */
module Plots {
  import opened Wrappers
  import opened Frames

  // ---------------------------------------------------------------------------
  // SubPlot and its four subclasses
  // ---------------------------------------------------------------------------

  datatype PlotKind = BarPlot | ScatterPlot | LinePlot | ScatterLinePlot

  /** The `plot_type` a subclass sets; the class default is `None`. */
  function PlotType(k: PlotKind): Option<string> {
    if k == BarPlot then Some("bar") else None
  }

  /** The `mode` a subclass sets; the class default is `None`. */
  function Mode(k: PlotKind): Option<string> {
    match k
    case BarPlot => None
    case ScatterPlot => Some("markers")
    case LinePlot => Some("lines")
    case ScatterLinePlot => Some("lines+markers")
  }

  /** The (type, mode) table: every kind sets exactly one of the two, and no
      two kinds produce the same pair. */
  lemma KindTable()
    ensures (PlotType(BarPlot), Mode(BarPlot)) == (Some("bar"), None)
    ensures (PlotType(ScatterPlot), Mode(ScatterPlot)) == (None, Some("markers"))
    ensures (PlotType(LinePlot), Mode(LinePlot)) == (None, Some("lines"))
    ensures (PlotType(ScatterLinePlot), Mode(ScatterLinePlot)) == (None, Some("lines+markers"))
    ensures forall k :: PlotType(k).Some? != Mode(k).Some?
    ensures forall k1, k2 :: PlotType(k1) == PlotType(k2) && Mode(k1) == Mode(k2) ==> k1 == k2
  {
  }

  /** A value of the plotly trace dict built by `generic_plot`.  The fixed
      `marker` and `line` style dicts are represented by a tag each. */
  datatype Field<V> = Values(values: seq<V>) | Tag(tag: Option<string>) | MarkerStyle | LineStyle

  type Trace<V> = map<string, Field<V>>

  const TraceKeys: set<string> := {"x", "y", "type", "mode", "marker", "line"}

  datatype SubPlot<V> = SubPlot(kind: PlotKind, xName: string, yName: string, plotName: string, plot: Trace<V>)

  /** Constructing a SubPlot subclass: `SubPlot.__init__` records the names,
      the subclass sets its type or mode, `generic_plot` reads both columns
      (the x column first, each raising `KeyError` when missing). */
  function NewSubPlot<V>(kind: PlotKind, df: Frame<V>, xName: string, yName: string): (r: Result<SubPlot<V>>)
    requires WellFormed(df)
    ensures r.Ok? <==> xName in df.columns && yName in df.columns
    ensures xName !in df.columns ==> r == Err(KeyError(xName))
    ensures xName in df.columns && yName !in df.columns ==> r == Err(KeyError(yName))
    ensures r.Ok? ==> r.value.kind == kind && r.value.xName == xName && r.value.yName == yName
    ensures r.Ok? ==> r.value.plotName == yName
    ensures r.Ok? ==> r.value.plot.Keys == TraceKeys
    ensures r.Ok? ==> r.value.plot["x"] == Values(ColumnValues(df, xName))
    ensures r.Ok? ==> r.value.plot["y"] == Values(ColumnValues(df, yName))
    ensures r.Ok? ==> r.value.plot["type"] == Tag(PlotType(kind)) && r.value.plot["mode"] == Tag(Mode(kind))
  {
    var xs :- Column(df, xName);
    var ys :- Column(df, yName);
    var plot := map[
      "x" := Values(xs),
      "y" := Values(ys),
      "type" := Tag(PlotType(kind)),
      "mode" := Tag(Mode(kind)),
      "marker" := MarkerStyle,
      "line" := LineStyle];
    Ok(SubPlot(kind, xName, yName, yName, plot))
  }

  // ---------------------------------------------------------------------------
  // DataTable
  // ---------------------------------------------------------------------------

  datatype ColumnDescriptor = ColumnDescriptor(name: string, id: string)

  /** The arguments `construct_table` hands to `dash_table.DataTable`. */
  datatype DataTable<V> = DataTable(id: string, columns: seq<ColumnDescriptor>, records: seq<map<string, V>>)

  /** The columns a table over `df` shows when asked for `cols`. */
  function ShownColumns<V>(df: Frame<V>, cols: seq<string>): seq<string> {
    if |cols| == 0 then df.columns else cols
  }

  /** `filter_df`: the whole frame for an empty column list, otherwise the
      projection onto the listed columns in the listed order. */
  function FilterDf<V>(df: Frame<V>, cols: seq<string>): (r: Result<Frame<V>>)
    requires WellFormed(df)
    ensures r.Ok? <==> forall c :: c in cols ==> c in df.columns
    ensures r.Err? ==> r.error.KeyError? && r.error.key in cols && r.error.key !in df.columns
    ensures |cols| == 0 ==> r == Ok(df)
    ensures r.Ok? ==> WellFormed(r.value) && r.value.columns == ShownColumns(df, cols)
    ensures r.Ok? ==> |r.value.rows| == |df.rows|
    ensures r.Ok? ==> forall i, c :: 0 <= i < |df.rows| && c in r.value.columns ==> r.value.rows[i][c] == df.rows[i][c]
  {
    if |cols| == 0 then Ok(df) else Select(df, cols)
  }

  /** `construct_table`: one `{name, id}` descriptor per shown column, in
      order, and one record per row. */
  function ConstructTable<V>(id: string, df: Frame<V>, cols: seq<string>): (r: Result<DataTable<V>>)
    requires WellFormed(df)
    ensures r.Ok? <==> forall c :: c in cols ==> c in df.columns
    ensures r.Err? ==> r.error == FilterDf(df, cols).error
    ensures r.Err? ==> r.error.KeyError? && r.error.key in cols && r.error.key !in df.columns
    ensures r.Ok? ==> r.value.id == id && |r.value.records| == |df.rows|
    ensures r.Ok? ==> |r.value.columns| == |ShownColumns(df, cols)|
    ensures r.Ok? ==> forall k :: 0 <= k < |r.value.columns| ==>
              r.value.columns[k] == ColumnDescriptor(ShownColumns(df, cols)[k], ShownColumns(df, cols)[k])
  {
    var f :- FilterDf(df, cols);
    Ok(DataTable(id, seq(|f.columns|, k requires 0 <= k < |f.columns| => ColumnDescriptor(f.columns[k], f.columns[k])), f.rows))
  }

  /** Every cell the table shows is the frame's cell: reading record `i`
      under the id of descriptor `k` gives row `i` of the column it names. */
  lemma TableCellsMatchFrame<V>(id: string, df: Frame<V>, cols: seq<string>)
    requires WellFormed(df)
    requires ConstructTable(id, df, cols).Ok?
    ensures var t := ConstructTable(id, df, cols).value;
      forall i, k :: 0 <= i < |t.records| && 0 <= k < |t.columns| ==>
        t.columns[k].id in t.records[i] && t.columns[k].name in df.rows[i]
        && t.records[i][t.columns[k].id] == df.rows[i][t.columns[k].name]
  {
    var f := FilterDf(df, cols).value;
    var t := ConstructTable(id, df, cols).value;
    forall i, k | 0 <= i < |t.records| && 0 <= k < |t.columns|
      ensures t.columns[k].id in t.records[i] && t.columns[k].name in df.rows[i]
        && t.records[i][t.columns[k].id] == df.rows[i][t.columns[k].name]
    {
      var c := f.columns[k];
      assert t.columns[k] == ColumnDescriptor(c, c);
      assert c in ColumnSet(f.columns);
      assert c in df.columns;
      assert c in ColumnSet(df.columns);
    }
  }

  // ---------------------------------------------------------------------------
  // Graph
  // ---------------------------------------------------------------------------

  datatype AxisNames = AxisNames(x: string, y: string)

  /** An element of `Graph.data`: a ready-made dict, or an object whose
      `.plot` is the dict; a SubPlot also carries `x_name` / `y_name`. */
  datatype Series<P> = DictSeries(dict: P) | PlotSeries(names: Option<AxisNames>, plot: P)

  /** The `data` argument: a list, or any single element. */
  datatype DataArg<P> = ListArg(items: seq<Series<P>>) | OneArg(item: Series<P>)

  /** The state `Graph.__init__` builds before handing it to plotly. */
  datatype Graph<P> = Graph(id: string, title: string, xTitle: string, yTitle: string, data: seq<Series<P>>)

  /** `init_data`: a list is kept, anything else is wrapped in a list. */
  function InitData<P>(arg: DataArg<P>): (r: seq<Series<P>>)
    ensures arg.ListArg? ==> r == arg.items
    ensures arg.OneArg? ==> r == [arg.item]
  {
    match arg
    case ListArg(items) => items
    case OneArg(item) => [item]
  }

  /** The protected read `self.data[0].x_name` / `.y_name`: it fails on an
      empty list and on an element without those attributes. */
  function FirstAxisNames<P>(data: seq<Series<P>>): (r: Option<AxisNames>)
    ensures r.Some? <==> |data| > 0 && data[0].PlotSeries? && data[0].names.Some?
  {
    if |data| > 0 && data[0].PlotSeries? then data[0].names else None
  }

  /** `init_axis_titles`. */
  function AxisTitles<P>(data: seq<Series<P>>, xTitle: Option<string>, yTitle: Option<string>): (r: AxisNames)
    ensures xTitle.Some? ==> r.x == xTitle.value
    ensures yTitle.Some? ==> r.y == yTitle.value
    ensures xTitle.None? ==> r.x == (if FirstAxisNames(data).Some? then FirstAxisNames(data).value.x else "x")
    ensures yTitle.None? ==> r.y == (if FirstAxisNames(data).Some? then FirstAxisNames(data).value.y else "y")
  {
    var first := FirstAxisNames(data);
    AxisNames(
      match xTitle case Some(t) => t case None => (if first.Some? then first.value.x else "x"),
      match yTitle case Some(t) => t case None => (if first.Some? then first.value.y else "y"))
  }

  /** `Graph.__init__`: the title defaults to the id. */
  function NewGraph<P>(id: string, arg: DataArg<P>, title: Option<string>, xTitle: Option<string>, yTitle: Option<string>): (g: Graph<P>)
    ensures g.id == id && g.data == InitData(arg)
    ensures title.None? ==> g.title == id
    ensures title.Some? ==> g.title == title.value
    ensures AxisNames(g.xTitle, g.yTitle) == AxisTitles(g.data, xTitle, yTitle)
  {
    var data := InitData(arg);
    var axes := AxisTitles(data, xTitle, yTitle);
    Graph(id, title.GetOr(id), axes.x, axes.y, data)
  }

  /** What `render_data` emits for one element. */
  function Payload<P>(s: Series<P>): P {
    match s
    case DictSeries(d) => d
    case PlotSeries(_, p) => p
  }

  /** `render_data`: dicts pass through, every other element becomes its
      `.plot`, one output per element in order. */
  function RenderData<P>(data: seq<Series<P>>): (r: seq<P>)
    ensures |r| == |data|
    ensures forall i :: 0 <= i < |data| ==> r[i] == Payload(data[i])
  {
    if |data| == 0 then [] else [Payload(data[0])] + RenderData(data[1..])
  }

  /** A SubPlot as a Graph element. */
  function AsSeries<V>(sp: SubPlot<V>): Series<Trace<V>> {
    PlotSeries(Some(AxisNames(sp.xName, sp.yName)), sp.plot)
  }

  /** A Graph built from a list of SubPlots with no explicit titles: the
      title is the id, the axes are named after the first SubPlot's columns
      ("x" and "y" when the list is empty), and the figure data are the
      SubPlots' trace dicts in order. */
  lemma GraphOfSubPlots<V>(id: string, sps: seq<SubPlot<V>>)
    ensures var g := NewGraph(id, ListArg(seq(|sps|, i requires 0 <= i < |sps| => AsSeries(sps[i]))), None, None, None);
      && g.title == id
      && (|sps| > 0 ==> g.xTitle == sps[0].xName && g.yTitle == sps[0].yName)
      && (|sps| == 0 ==> g.xTitle == "x" && g.yTitle == "y")
      && RenderData(g.data) == seq(|sps|, i requires 0 <= i < |sps| => sps[i].plot)
  {
  }
}

=== FILE: slug.dfy ===
/** `AutoDash.to_slug`: the normaliser that turns a dashboard title or a tab
    label into an element id.  The Python runs five steps in order:
      1. `lower()`;
      2. every whitespace character becomes `-`;
      3. every character outside `a-z`, `0-9`, `-`, `_` is removed;
      4. every run of two or more characters from {`-`, `_`} becomes one `-`;
      5. leading and trailing `-` / `_` are stripped.
    The model covers ASCII input, where `lower()` only maps `A-Z` and the
    regular expression `\s` matches the codes 9-13, 28-31 and 32. */
module Slug {

  predicate IsAscii(s: string) {
    forall i :: 0 <= i < |s| ==> s[i] as int < 128
  }

  predicate IsUpper(c: char) {
    'A' <= c <= 'Z'
  }

  function LowerChar(c: char): char {
    if IsUpper(c) then (c as int + 32) as char else c
  }

  /** The ASCII members of Python's `\s`: tab, line feed, vertical tab, form
      feed, carriage return, the four information separators, space. */
  predicate IsSpace(c: char) {
    var n := c as int;
    (9 <= n <= 13) || (28 <= n <= 32)
  }

  /** The two separator characters the later steps treat alike. */
  predicate IsSep(c: char) {
    c == '-' || c == '_'
  }

  predicate IsLowerAlnum(c: char) {
    ('a' <= c <= 'z') || ('0' <= c <= '9')
  }

  /** The character class `[a-z0-9-_]` of step 3. */
  predicate IsSlugChar(c: char) {
    IsLowerAlnum(c) || IsSep(c)
  }

  predicate AllSlugChars(s: string) {
    forall i :: 0 <= i < |s| ==> IsSlugChar(s[i])
  }

  predicate NoAdjacentSeps(s: string) {
    forall i :: 0 <= i < |s| - 1 ==> !(IsSep(s[i]) && IsSep(s[i + 1]))
  }

  predicate NoOuterSeps(s: string) {
    |s| > 0 ==> !IsSep(s[0]) && !IsSep(s[|s| - 1])
  }

  /** What every output of `ToSlug` looks like. */
  predicate IsSlug(s: string) {
    AllSlugChars(s) && NoAdjacentSeps(s) && NoOuterSeps(s)
  }

  // ---------------------------------------------------------------------------
  // The five steps
  // ---------------------------------------------------------------------------

  /** Step 1: `lower()` on ASCII text. */
  function Lower(s: string): (r: string)
    ensures |r| == |s|
    ensures forall i :: 0 <= i < |s| ==> r[i] == LowerChar(s[i])
  {
    if |s| == 0 then [] else [LowerChar(s[0])] + Lower(s[1..])
  }

  /** Step 2: `re.sub(r'\s', '-', s)`. */
  function Hyphenate(s: string): (r: string)
    ensures |r| == |s|
    ensures forall i :: 0 <= i < |s| ==> r[i] == (if IsSpace(s[i]) then '-' else s[i])
  {
    if |s| == 0 then [] else [if IsSpace(s[0]) then '-' else s[0]] + Hyphenate(s[1..])
  }

  /** Step 3: `re.sub(r'[^a-z0-9-_]', '', s)`. */
  function DropDisallowed(s: string): (r: string)
    ensures AllSlugChars(r)
    ensures |r| <= |s|
    ensures forall c :: c in r <==> c in s && IsSlugChar(c)
  {
    if |s| == 0 then []
    else (if IsSlugChar(s[0]) then [s[0]] else []) + DropDisallowed(s[1..])
  }

  /** Length of the run of separators `s` starts with. */
  function LeadingSeps(s: string): (n: nat)
    ensures n <= |s|
    ensures forall i :: 0 <= i < n ==> IsSep(s[i])
    ensures n < |s| ==> !IsSep(s[n])
  {
    if |s| > 0 && IsSep(s[0]) then 1 + LeadingSeps(s[1..]) else 0
  }

  /** Length of the run of separators `s` ends with. */
  function TrailingSeps(s: string): (n: nat)
    ensures n <= |s|
    ensures forall i :: |s| - n <= i < |s| ==> IsSep(s[i])
    ensures n < |s| ==> !IsSep(s[|s| - 1 - n])
  {
    if |s| > 0 && IsSep(s[|s| - 1]) then 1 + TrailingSeps(s[..|s| - 1]) else 0
  }

  /** Step 4: `re.sub(r'[-_]{2,}', '-', s)`.  The scan is leftmost and greedy,
      so every maximal run of at least two separators becomes one `-`, and a
      lone `-` or `_` stays as it is. */
  function Collapse(s: string): (r: string)
    ensures |r| <= |s|
    ensures AllSlugChars(s) ==> AllSlugChars(r)
    ensures NoAdjacentSeps(r)
    ensures |s| > 0 && !IsSep(s[0]) ==> |r| > 0 && r[0] == s[0]
    ensures (forall i :: 0 <= i < |s| ==> IsSep(s[i])) ==> r == (if |s| >= 2 then "-" else s)
    decreases |s|
  {
    if |s| == 0 then []
    else if IsSep(s[0]) then
      var n := LeadingSeps(s);
      assert n >= 1;
      var head := if n >= 2 then "-" else s[..1];
      var tail := Collapse(s[n..]);
      assert AllSlugChars(s) ==> AllSlugChars(s[n..]);
      NoAdjacentConcat(head, tail);
      head + tail
    else
      var tail := Collapse(s[1..]);
      NoAdjacentConcat(s[..1], tail);
      s[..1] + tail
  }

  /** Step 5: `s.strip('-_')`.  The result is the slice of `s` that starts
      after its leading separators and is followed by separators only. */
  function Strip(s: string): (r: string)
    ensures NoOuterSeps(r)
    ensures LeadingSeps(s) + |r| <= |s|
    ensures r == s[LeadingSeps(s)..LeadingSeps(s) + |r|]
    ensures forall i :: LeadingSeps(s) + |r| <= i < |s| ==> IsSep(s[i])
    ensures (forall i :: 0 <= i < |s| ==> IsSep(s[i])) ==> r == []
  {
    var t := s[LeadingSeps(s)..];
    t[..|t| - TrailingSeps(t)]
  }

  /** `AutoDash.to_slug` on ASCII input. */
  function ToSlug(s: string): (r: string)
    requires IsAscii(s)
    ensures IsSlug(r)
    ensures |r| <= |s|
  {
    var r := Strip(Collapse(DropDisallowed(Hyphenate(Lower(s)))));
    SliceKeepsShape(Collapse(DropDisallowed(Hyphenate(Lower(s)))));
    r
  }

  // ---------------------------------------------------------------------------
  // Lemmas
  // ---------------------------------------------------------------------------

  lemma NoAdjacentConcat(a: string, b: string)
    requires NoAdjacentSeps(a) && NoAdjacentSeps(b)
    requires |a| > 0 && |b| > 0 ==> !(IsSep(a[|a| - 1]) && IsSep(b[0]))
    ensures NoAdjacentSeps(a + b)
  {
    var c := a + b;
    forall i | 0 <= i < |c| - 1
      ensures !(IsSep(c[i]) && IsSep(c[i + 1]))
    {
      if i + 1 < |a| {
        assert c[i] == a[i] && c[i + 1] == a[i + 1];
      } else if i >= |a| {
        assert c[i] == b[i - |a|] && c[i + 1] == b[i + 1 - |a|];
      }
    }
  }

  /** Stripping keeps the alphabet and the absence of adjacent separators:
      its result is a slice of its argument. */
  lemma SliceKeepsShape(s: string)
    ensures AllSlugChars(s) ==> AllSlugChars(Strip(s))
    ensures NoAdjacentSeps(s) ==> NoAdjacentSeps(Strip(s))
    ensures |Strip(s)| <= |s|
  {
    var a := LeadingSeps(s);
    var t := s[a..];
    var r := t[..|t| - TrailingSeps(t)];
    assert r == s[a..a + |r|];
  }

  /** A slug passes through every step unchanged. */
  lemma SlugFixpoint(s: string)
    requires IsSlug(s)
    ensures IsAscii(s)
    ensures ToSlug(s) == s
  {
    assert IsAscii(s) by {
      forall i | 0 <= i < |s| ensures s[i] as int < 128 {
        assert IsSlugChar(s[i]);
      }
    }
    LowerHyphenateFixpoint(s);
    DropFixpoint(s);
    CollapseFixpoint(s);
    StripFixpoint(s);
  }

  lemma LowerHyphenateFixpoint(s: string)
    requires AllSlugChars(s)
    ensures Lower(s) == s
    ensures Hyphenate(s) == s
  {
    assert forall i :: 0 <= i < |s| ==> IsSlugChar(s[i]);
  }

  lemma StripFixpoint(s: string)
    requires NoOuterSeps(s)
    ensures Strip(s) == s
  {
    assert LeadingSeps(s) == 0;
    assert s[0..] == s;
    assert TrailingSeps(s) == 0;
  }

  lemma {:induction false} DropFixpoint(s: string)
    requires AllSlugChars(s)
    ensures DropDisallowed(s) == s
  {
    if |s| > 0 {
      DropFixpoint(s[1..]);
      assert s == [s[0]] + s[1..];
    }
  }

  lemma {:induction false} CollapseFixpoint(s: string)
    requires NoAdjacentSeps(s)
    ensures Collapse(s) == s
    decreases |s|
  {
    if |s| > 0 {
      if IsSep(s[0]) {
        assert |s| > 1 ==> !IsSep(s[1]);
        assert LeadingSeps(s[1..]) == 0;
      }
      CollapseFixpoint(s[1..]);
      assert s == s[..1] + s[1..];
    }
  }

  /** Dropping distributes over concatenation; with the one-character case
      of the definition this makes the result the allowed characters of `s`,
      in order. */
  lemma {:induction false} DropConcat(a: string, b: string)
    ensures DropDisallowed(a + b) == DropDisallowed(a) + DropDisallowed(b)
  {
    if |a| == 0 {
      assert a + b == b;
    } else {
      assert (a + b)[0] == a[0];
      assert (a + b)[1..] == a[1..] + b;
      DropConcat(a[1..], b);
    }
  }

  /** `LeadingSeps` is the only length whose prefix is all separators and is
      not followed by one. */
  lemma LeadingSepsUnique(s: string, m: nat)
    requires m <= |s| && forall i :: 0 <= i < m ==> IsSep(s[i])
    requires m < |s| ==> !IsSep(s[m])
    ensures LeadingSeps(s) == m
  {
  }

  /** One step of `Collapse`: the first run (or the first other character)
      is rewritten and the rest is collapsed on its own. */
  lemma CollapseStep(s: string)
    requires |s| > 0
    ensures !IsSep(s[0]) ==> Collapse(s) == s[..1] + Collapse(s[1..])
    ensures IsSep(s[0]) ==> (LeadingSeps(s) >= 1 &&
      Collapse(s) == (if LeadingSeps(s) >= 2 then "-" else s[..1]) + Collapse(s[LeadingSeps(s)..]))
  {
  }

  /** Runs never span a seam without two adjacent separators, so collapsing
      works piecewise there: every run is rewritten on its own. */
  lemma {:induction false} CollapseConcat(a: string, b: string)
    requires |a| > 0 && |b| > 0 ==> !(IsSep(a[|a| - 1]) && IsSep(b[0]))
    ensures Collapse(a + b) == Collapse(a) + Collapse(b)
    decreases |a|
  {
    if |a| == 0 {
      assert a + b == b;
    } else if !IsSep(a[0]) {
      CollapseConcatPlain(a, b);
    } else if LeadingSeps(a) < |a| {
      CollapseConcatRun(a, b);
    } else {
      CollapseConcatSeps(a, b);
    }
  }

  lemma {:induction false} CollapseConcatPlain(a: string, b: string)
    requires |a| > 0 && !IsSep(a[0])
    requires |b| > 0 ==> !(IsSep(a[|a| - 1]) && IsSep(b[0]))
    ensures Collapse(a + b) == Collapse(a) + Collapse(b)
    decreases |a|, 0
  {
    var s := a + b;
    calc {
      Collapse(s);
    == { assert s[0] == a[0]; CollapseStep(s); }
      s[..1] + Collapse(s[1..]);
    == { assert s[..1] == a[..1]; assert s[1..] == a[1..] + b; CollapseConcat(a[1..], b); }
      a[..1] + (Collapse(a[1..]) + Collapse(b));
      (a[..1] + Collapse(a[1..])) + Collapse(b);
    == { CollapseStep(a); }
      Collapse(a) + Collapse(b);
    }
  }

  lemma {:induction false} CollapseConcatRun(a: string, b: string)
    requires |a| > 0 && IsSep(a[0]) && LeadingSeps(a) < |a|
    requires |b| > 0 ==> !(IsSep(a[|a| - 1]) && IsSep(b[0]))
    ensures Collapse(a + b) == Collapse(a) + Collapse(b)
    decreases |a|, 0
  {
    var m := LeadingSeps(a);
    assert m >= 1 && a[m..][|a[m..]| - 1] == a[|a| - 1];
    CollapseConcat(a[m..], b);
    CollapseRunLift(a, b);
  }

  /** Splitting after the leading run of `a` commutes with collapsing. */
  lemma CollapseRunLift(a: string, b: string)
    requires |a| > 0 && IsSep(a[0]) && LeadingSeps(a) < |a|
    requires Collapse(a[LeadingSeps(a)..] + b) == Collapse(a[LeadingSeps(a)..]) + Collapse(b)
    ensures Collapse(a + b) == Collapse(a) + Collapse(b)
  {
    var m := LeadingSeps(a);
    var head := if m >= 2 then "-" else a[..1];
    CollapseSkipRun(a, b);
    CollapseStep(a);
    ChainConcat(Collapse(a + b), Collapse(a[m..] + b), Collapse(a), Collapse(a[m..]), Collapse(b), head);
  }

  lemma ChainConcat(whole: string, rest: string, left: string, leftRest: string, right: string, head: string)
    requires whole == head + rest && rest == leftRest + right && left == head + leftRest
    ensures whole == left + right
  {
    assert head + (leftRest + right) == (head + leftRest) + right;
  }

  /** A leading run of `a` that stops inside `a` is rewritten the same way
      whatever follows `a`. */
  lemma CollapseSkipRun(a: string, b: string)
    requires |a| > 0 && IsSep(a[0]) && LeadingSeps(a) < |a|
    ensures var m := LeadingSeps(a);
      Collapse(a + b) == (if m >= 2 then "-" else a[..1]) + Collapse(a[m..] + b)
  {
    var s := a + b;
    var m := LeadingSeps(a);
    assert LeadingSeps(s) == m by {
      assert forall i :: 0 <= i <= m ==> s[i] == a[i];
      LeadingSepsUnique(s, m);
    }
    assert s[0] == a[0] && s[..1] == a[..1];
    assert s[m..] == a[m..] + b;
    CollapseStep(s);
  }

  lemma CollapseConcatSeps(a: string, b: string)
    requires |a| > 0 && IsSep(a[0]) && LeadingSeps(a) == |a|
    requires |b| > 0 ==> !(IsSep(a[|a| - 1]) && IsSep(b[0]))
    ensures Collapse(a + b) == Collapse(a) + Collapse(b)
  {
    var s := a + b;
    var m := |a|;
    assert forall i :: 0 <= i < m ==> s[i] == a[i];
    assert |b| > 0 ==> s[m] == b[0];
    LeadingSepsUnique(s, m);
    CollapseStep(s);
    CollapseStep(a);
    assert s[..1] == a[..1];
    assert s[m..] == b;
    assert a[m..] == [];
  }

  /** `to_slug` is idempotent. */
  lemma ToSlugIdempotent(s: string)
    requires IsAscii(s)
    ensures IsAscii(ToSlug(s))
    ensures ToSlug(ToSlug(s)) == ToSlug(s)
  {
    SlugFixpoint(ToSlug(s));
  }

  /** The letters and digits of `s`, in order. */
  function Alnums(s: string): string {
    if |s| == 0 then [] else (if IsLowerAlnum(s[0]) then [s[0]] else []) + Alnums(s[1..])
  }

  lemma {:induction false} AlnumsConcat(a: string, b: string)
    ensures Alnums(a + b) == Alnums(a) + Alnums(b)
  {
    if |a| > 0 {
      assert (a + b)[0] == a[0];
      assert (a + b)[1..] == a[1..] + b;
      AlnumsConcat(a[1..], b);
    } else {
      assert a + b == b;
    }
  }

  lemma {:induction false} AlnumsOfSeps(s: string)
    requires forall i :: 0 <= i < |s| ==> IsSep(s[i])
    ensures Alnums(s) == []
  {
    if |s| > 0 {
      AlnumsOfSeps(s[1..]);
    }
  }

  lemma {:induction false} AlnumsHyphenate(s: string)
    ensures Alnums(Hyphenate(s)) == Alnums(s)
  {
    if |s| > 0 {
      AlnumsHyphenate(s[1..]);
    }
  }

  lemma {:induction false} AlnumsDrop(s: string)
    ensures Alnums(DropDisallowed(s)) == Alnums(s)
  {
    if |s| > 0 {
      var h := if IsSlugChar(s[0]) then [s[0]] else [];
      AlnumsConcat(h, DropDisallowed(s[1..]));
      AlnumsDrop(s[1..]);
    }
  }

  lemma {:induction false} AlnumsCollapse(s: string)
    ensures Alnums(Collapse(s)) == Alnums(s)
    decreases |s|
  {
    if |s| > 0 {
      if IsSep(s[0]) {
        var n := LeadingSeps(s);
        var head := if n >= 2 then "-" else s[..1];
        calc {
          Alnums(Collapse(s));
        == { CollapseStep(s); }
          Alnums(head + Collapse(s[n..]));
        == { AlnumsConcat(head, Collapse(s[n..])); AlnumsOfSeps(head); }
          Alnums(Collapse(s[n..]));
        == { AlnumsCollapse(s[n..]); }
          Alnums(s[n..]);
        == { AlnumsSkipPrefix(s, n); }
          Alnums(s);
        }
      } else {
        calc {
          Alnums(Collapse(s));
        == { CollapseStep(s); }
          Alnums(s[..1] + Collapse(s[1..]));
        == { AlnumsConcat(s[..1], Collapse(s[1..])); AlnumsCollapse(s[1..]); }
          Alnums(s[..1]) + Alnums(s[1..]);
        == { AlnumsConcat(s[..1], s[1..]); assert s == s[..1] + s[1..]; }
          Alnums(s);
        }
      }
    }
  }

  /** Dropping a leading run of separators keeps the letters and digits. */
  lemma AlnumsSkipPrefix(s: string, n: nat)
    requires n <= |s| && forall i :: 0 <= i < n ==> IsSep(s[i])
    ensures Alnums(s[n..]) == Alnums(s)
  {
    calc {
      Alnums(s);
    == { assert s == s[..n] + s[n..]; }
      Alnums(s[..n] + s[n..]);
    == { AlnumsConcat(s[..n], s[n..]); }
      Alnums(s[..n]) + Alnums(s[n..]);
    == { assert forall i :: 0 <= i < n ==> s[..n][i] == s[i]; AlnumsOfSeps(s[..n]); }
      Alnums(s[n..]);
    }
  }

  /** Dropping a trailing run of separators keeps the letters and digits. */
  lemma AlnumsSkipSuffix(t: string, n: nat)
    requires n <= |t| && forall i :: |t| - n <= i < |t| ==> IsSep(t[i])
    ensures Alnums(t[..|t| - n]) == Alnums(t)
  {
    var k := |t| - n;
    assert t == t[..k] + t[k..];
    AlnumsConcat(t[..k], t[k..]);
    assert forall i :: 0 <= i < n ==> t[k..][i] == t[k + i];
    AlnumsOfSeps(t[k..]);
  }

  lemma AlnumsStrip(s: string)
    ensures Alnums(Strip(s)) == Alnums(s)
  {
    var a := LeadingSeps(s);
    AlnumsSkipPrefix(s, a);
    var t := s[a..];
    AlnumsSkipSuffix(t, TrailingSeps(t));
  }

  /** Normalisation only ever removes punctuation: the letters and digits of
      the slug are exactly those of the lower-cased input, in the same order. */
  lemma ToSlugKeepsAlnums(s: string)
    requires IsAscii(s)
    ensures Alnums(ToSlug(s)) == Alnums(Lower(s))
  {
    var s1 := Lower(s);
    var s2 := Hyphenate(s1);
    var s3 := DropDisallowed(s2);
    var s4 := Collapse(s3);
    AlnumsHyphenate(s1);
    AlnumsDrop(s2);
    AlnumsCollapse(s3);
    AlnumsStrip(s4);
  }
}

=== FILE: tabs.dfy ===
/** The tab classes of quick_dash/dash_tabs.py: the declared identity and
    freshness of a tab, the per-instance lazy data cache, the chart set-up of
    `DashboardTab.init_graph`, the dropdown's options and filter over the
    module-global `cache`, and the two-per-row layout of `MultiTab`. */
module Tabs {
  import opened Wrappers
  import opened Frames
  import opened Plots

  // ---------------------------------------------------------------------------
  // Tab declarations
  // ---------------------------------------------------------------------------

  /** What a dashboard reads from a tab class: its label, its `value` (the
      element id and store key) and its `sync_type`. */
  datatype TabDecl = TabDecl(tabLabel: string, value: string, syncType: string)

  predicate IsDynamic(t: TabDecl) {
    t.syncType == "dynamic"
  }

  /** The tab class families of the module. */
  datatype Variant = ChartTab | TableTab | DropDownTab | MultiTab

  /** What the dashboards read as `sync_type` on a tab class that does not
      set it.  `SingleTAB` (and so the chart, table and dropdown tabs) has the
      class attribute "static".  `BaseTab` (and so `MultiTab`) declares it as
      a property, and reading a property on the class yields the property
      object itself, stood for here by `PropertyObject`.  Neither is
      "dynamic". */
  const PropertyObject := "<property sync_type>"

  function DefaultSyncType(v: Variant): (r: string)
    ensures r != "dynamic"
    ensures r == "static" <==> v != MultiTab
  {
    match v
    case MultiTab => PropertyObject
    case _ => "static"
  }

  /** A tab class as a subclass declares it: its own `sync_type` if it sets
      one, the inherited default otherwise. */
  function Declare(tabLabel: string, value: string, v: Variant, syncType: Option<string>): (t: TabDecl)
    ensures t.tabLabel == tabLabel && t.value == value
    ensures IsDynamic(t) <==> syncType == Some("dynamic")
  {
    TabDecl(tabLabel, value, syncType.GetOr(DefaultSyncType(v)))
  }

  // ---------------------------------------------------------------------------
  // The per-instance lazy data cache (`SingleTAB.data`)
  // ---------------------------------------------------------------------------

  /** A tab instance's data state: `cached_data` and how many times its
      loader has run.  A loader is a function of the call number, so that the
      model covers a source whose content changes between calls; `None` is
      Python's `None`. */
  datatype Instance<D> = Instance(cachedData: Option<D>, loads: nat)

  function NewInstance<D>(): Instance<D> {
    Instance(None, 0)
  }

  datatype Read<D> = Read(value: Option<D>, after: Instance<D>)

  /** The `data` property: run the loader only when nothing is cached, and
      cache what it returns. */
  function ReadData<D>(inst: Instance<D>, loader: nat -> Option<D>): (r: Read<D>)
    ensures inst.cachedData.Some? ==> r.value == inst.cachedData && r.after == inst
    ensures inst.cachedData.None? ==> r.value == loader(inst.loads)
    ensures inst.cachedData.None? ==> r.after.loads == inst.loads + 1 && r.after.cachedData == r.value
  {
    match inst.cachedData
    case Some(_) => Read(inst.cachedData, inst)
    case None =>
      var d := loader(inst.loads);
      Read(d, Instance(d, inst.loads + 1))
  }

  /** `n` consecutive reads of `data`: the values returned and the final state. */
  function ReadMany<D>(inst: Instance<D>, loader: nat -> Option<D>, n: nat): (r: (seq<Option<D>>, Instance<D>))
    ensures |r.0| == n
    ensures r.1.loads >= inst.loads
    ensures n == 0 ==> r.1 == inst
    ensures n > 0 ==> r.0[0] == ReadData(inst, loader).value
    ensures n > 0 && inst.cachedData.Some? ==> r.1 == inst
    decreases n
  {
    if n == 0 then ([], inst)
    else
      var first := ReadData(inst, loader);
      var rest := ReadMany(first.after, loader, n - 1);
      ([first.value] + rest.0, rest.1)
  }

  /** Once a value is cached, reads return it and never load. */
  lemma {:induction false} WarmReadsNeverLoad<D>(inst: Instance<D>, loader: nat -> Option<D>, n: nat)
    requires inst.cachedData.Some?
    ensures ReadMany(inst, loader, n).1 == inst
    ensures forall i :: 0 <= i < n ==> ReadMany(inst, loader, n).0[i] == inst.cachedData
  {
    if n > 0 {
      WarmReadsNeverLoad(inst, loader, n - 1);
    }
  }

  /** Cold-load-once: when the first load returns a value, any number of
      reads runs the loader exactly once and always returns that value. */
  lemma ColdLoadOnce<D>(inst: Instance<D>, loader: nat -> Option<D>, n: nat)
    requires inst.cachedData.None? && loader(inst.loads).Some?
    requires n >= 1
    ensures ReadMany(inst, loader, n).1.loads == inst.loads + 1
    ensures forall i :: 0 <= i < n ==> ReadMany(inst, loader, n).0[i] == loader(inst.loads)
  {
    var first := ReadData(inst, loader);
    WarmReadsNeverLoad(first.after, loader, n - 1);
  }

  /** A `None` load is not cached: while the loader keeps returning `None`,
      every read runs it again. */
  lemma {:induction false} NoneIsNotCached<D>(inst: Instance<D>, loader: nat -> Option<D>, n: nat)
    requires inst.cachedData.None?
    requires forall k :: inst.loads <= k < inst.loads + n ==> loader(k).None?
    ensures ReadMany(inst, loader, n).1 == Instance(None, inst.loads + n)
    ensures forall i :: 0 <= i < n ==> ReadMany(inst, loader, n).0[i].None?
    decreases n
  {
    if n > 0 {
      var first := ReadData(inst, loader);
      NoneIsNotCached(first.after, loader, n - 1);
    }
  }

  // ---------------------------------------------------------------------------
  // DashboardTab.init_graph
  // ---------------------------------------------------------------------------

  /** `graph_columns`: one `{'x': .., 'y': ..}` dict, or a list of them. */
  datatype GraphColumns = OneSpec(spec: map<string, string>) | SpecList(specs: seq<map<string, string>>)

  /** A single dict is wrapped into a one-element list. */
  function NormaliseColumns(gc: GraphColumns): (r: seq<map<string, string>>)
    ensures gc.OneSpec? ==> r == [gc.spec]
    ensures gc.SpecList? ==> r == gc.specs
  {
    match gc
    case OneSpec(s) => [s]
    case SpecList(ss) => ss
  }

  /** `plot_function(self.data, column['x'], column['y'])` for one spec. */
  function BuildSeries<V>(kind: PlotKind, df: Frame<V>, spec: map<string, string>): (r: Result<SubPlot<V>>)
    requires WellFormed(df)
    ensures r.Ok? <==> "x" in spec && "y" in spec && spec["x"] in df.columns && spec["y"] in df.columns
    ensures "x" !in spec ==> r == Err(KeyError("x"))
    ensures "x" in spec && "y" !in spec ==> r == Err(KeyError("y"))
    ensures "x" in spec && "y" in spec && spec["x"] !in df.columns ==> r == Err(KeyError(spec["x"]))
    ensures "x" in spec && "y" in spec && spec["x"] in df.columns && spec["y"] !in df.columns ==>
              r == Err(KeyError(spec["y"]))
    ensures r.Ok? ==> "x" in spec && "y" in spec && r.value.xName == spec["x"] && r.value.yName == spec["y"]
    ensures r.Ok? ==> r.value.kind == kind
  {
    if "x" !in spec then Err(KeyError("x"))
    else if "y" !in spec then Err(KeyError("y"))
    else NewSubPlot(kind, df, spec["x"], spec["y"])
  }

  /** The loop of `init_graph`: one series per spec, in order, or the error
      of the first spec that fails. */
  function InitGraphSeries<V>(kind: PlotKind, df: Frame<V>, specs: seq<map<string, string>>): (r: Result<seq<SubPlot<V>>>)
    requires WellFormed(df)
    ensures r.Ok? <==> forall i :: 0 <= i < |specs| ==> BuildSeries(kind, df, specs[i]).Ok?
    ensures r.Ok? ==> |r.value| == |specs|
    ensures r.Ok? ==> forall i :: 0 <= i < |specs| ==> r.value[i] == BuildSeries(kind, df, specs[i]).value
    ensures r.Err? ==> exists k :: (0 <= k < |specs| && BuildSeries(kind, df, specs[k]) == Err(r.error)
              && forall j :: 0 <= j < k ==> BuildSeries(kind, df, specs[j]).Ok?)
  {
    if |specs| == 0 then Ok([])
    else
      match BuildSeries(kind, df, specs[0])
      case Err(e) => Err(e)
      case Ok(s) =>
        match InitGraphSeries(kind, df, specs[1..])
        case Err(e) =>
          var k :| 0 <= k < |specs| - 1 && BuildSeries(kind, df, specs[1..][k]) == Err(e)
            && forall j :: 0 <= j < k ==> BuildSeries(kind, df, specs[1..][j]).Ok?;
          assert BuildSeries(kind, df, specs[k + 1]) == Err(e);
          Err(e)
        case Ok(rest) => Ok([s] + rest)
  }

  /** `init_graph`: normalise the column specs, build the series, and wrap
      them in a Graph whose id is the tab's label. */
  function InitGraph<V>(tabLabel: string, kind: PlotKind, df: Frame<V>, gc: GraphColumns): (r: Result<Graph<Trace<V>>>)
    requires WellFormed(df)
    ensures r.Ok? <==> forall i :: 0 <= i < |NormaliseColumns(gc)| ==>
              var spec := NormaliseColumns(gc)[i];
              "x" in spec && "y" in spec && spec["x"] in df.columns && spec["y"] in df.columns
    ensures r.Err? ==> exists k :: (0 <= k < |NormaliseColumns(gc)|
              && BuildSeries(kind, df, NormaliseColumns(gc)[k]) == Err(r.error)
              && forall j :: 0 <= j < k ==> BuildSeries(kind, df, NormaliseColumns(gc)[j]).Ok?)
    ensures r.Ok? ==> r.value.title == tabLabel && |RenderData(r.value.data)| == |NormaliseColumns(gc)|
  {
    var series :- InitGraphSeries(kind, df, NormaliseColumns(gc));
    Ok(NewGraph(tabLabel, ListArg(seq(|series|, i requires 0 <= i < |series| => AsSeries(series[i]))), None, None, None))
  }

  /** A chart tab's graph has one trace per column spec, in order, each
      drawn from that spec's x and y columns; it is titled with the label and
      its axes are named after the first spec ("x" / "y" when there is none). */
  lemma InitGraphShape<V>(tabLabel: string, kind: PlotKind, df: Frame<V>, gc: GraphColumns)
    requires WellFormed(df)
    requires InitGraph(tabLabel, kind, df, gc).Ok?
    ensures var g := InitGraph(tabLabel, kind, df, gc).value;
      var specs := NormaliseColumns(gc);
      && g.title == tabLabel
      && |RenderData(g.data)| == |specs|
      && (forall i :: 0 <= i < |specs| ==>
            "x" in specs[i] && "y" in specs[i]
            && RenderData(g.data)[i]["x"] == Values(ColumnValues(df, specs[i]["x"]))
            && RenderData(g.data)[i]["y"] == Values(ColumnValues(df, specs[i]["y"])))
      && (|specs| > 0 ==> g.xTitle == specs[0]["x"] && g.yTitle == specs[0]["y"])
      && (|specs| == 0 ==> g.xTitle == "x" && g.yTitle == "y")
  {
    var specs := NormaliseColumns(gc);
    var series := InitGraphSeries(kind, df, specs).value;
    GraphOfSubPlots(tabLabel, series);
    forall i | 0 <= i < |specs|
      ensures "x" in specs[i] && "y" in specs[i]
      ensures series[i].plot["x"] == Values(ColumnValues(df, specs[i]["x"]))
      ensures series[i].plot["y"] == Values(ColumnValues(df, specs[i]["y"]))
    {
      assert BuildSeries(kind, df, specs[i]).Ok?;
    }
  }

  // ---------------------------------------------------------------------------
  // DropDownTab: options, the module-global cache and the filter
  // ---------------------------------------------------------------------------

  /** `options`: the distinct values of the options column, each once, in
      order of first occurrence; `KeyError` when the column is missing. */
  function Options<V(==,!new)>(df: Frame<V>, col: string): (r: Result<seq<V>>)
    requires WellFormed(df)
    ensures r.Ok? <==> col in df.columns
    ensures r.Err? ==> r.error == KeyError(col)
    ensures r.Ok? ==> NoDuplicates(r.value)
    ensures r.Ok? ==> forall x :: x in r.value <==> x in ColumnValues(df, col)
    ensures r.Ok? ==> forall i, j :: 0 <= i < j < |r.value| ==>
              FirstIndex(ColumnValues(df, col), r.value[i]) < FirstIndex(ColumnValues(df, col), r.value[j])
  {
    var values :- Column(df, col);
    DedupSpec(values);
    Ok(Dedup(values))
  }

  /** The module-global `cache`: tab label to the data the tab published. */
  type Cache<V> = map<string, Option<Frame<V>>>

  predicate CacheWellFormed<V>(cache: Cache<V>) {
    forall k :: k in cache && cache[k].Some? ==> WellFormed(cache[k].value)
  }

  /** `init_global_vars`: read `data` (loading it if not cached) and store it
      under the tab's label, overwriting any earlier entry for that label. */
  function InitGlobalVars<V>(inst: Instance<Frame<V>>, cache: Cache<V>, tabLabel: string, loader: nat -> Option<Frame<V>>)
    : (r: (Instance<Frame<V>>, Cache<V>))
    ensures r.0 == ReadData(inst, loader).after
    ensures r.1.Keys == cache.Keys + {tabLabel}
    ensures r.1[tabLabel] == ReadData(inst, loader).value
    ensures forall k :: k in cache && k != tabLabel ==> r.1[k] == cache[k]
  {
    var rd := ReadData(inst, loader);
    (rd.after, cache[tabLabel := rd.value])
  }

  /** `DropDownTab.init_tab`: a bare `data_loader()` call whose result is
      discarded, then `init_global_vars`. */
  function DropDownInitTab<V>(inst: Instance<Frame<V>>, cache: Cache<V>, tabLabel: string, loader: nat -> Option<Frame<V>>)
    : (r: (Instance<Frame<V>>, Cache<V>))
    ensures r.0.loads == inst.loads + (if inst.cachedData.Some? then 1 else 2)
    ensures r.1.Keys == cache.Keys + {tabLabel}
    ensures r.1[tabLabel] == r.0.cachedData
    ensures r.1[tabLabel] == if inst.cachedData.Some? then inst.cachedData else loader(inst.loads + 1)
    ensures forall k :: k in cache && k != tabLabel ==> r.1[k] == cache[k]
  {
    InitGlobalVars(Instance(inst.cachedData, inst.loads + 1), cache, tabLabel, loader)
  }

  /** On a fresh instance `init_tab` runs the loader twice and publishes the
      second load. */
  lemma DropDownInitLoadsTwice<V>(cache: Cache<V>, tabLabel: string, loader: nat -> Option<Frame<V>>)
    ensures var r := DropDownInitTab(NewInstance(), cache, tabLabel, loader);
      r.0.loads == 2 && r.1[tabLabel] == loader(1) && r.0.cachedData == loader(1)
  {
  }

  /** The row filter of `update_graph`: look the tab's data up in the global
      cache by label, then keep the rows whose options column equals the
      selected value. */
  function UpdateGraphRows<V(==,!new)>(cache: Cache<V>, tabLabel: string, col: string, value: V): (r: Result<Frame<V>>)
    requires CacheWellFormed(cache)
    ensures tabLabel !in cache ==> r == Err(KeyError(tabLabel))
    ensures tabLabel in cache && cache[tabLabel].None? ==> r.Err? && r.error.TypeError?
    ensures tabLabel in cache && cache[tabLabel].Some? && col !in cache[tabLabel].value.columns ==> r == Err(KeyError(col))
    ensures r.Ok? <==> tabLabel in cache && cache[tabLabel].Some? && col in cache[tabLabel].value.columns
    ensures r.Ok? ==> r.value.columns == cache[tabLabel].value.columns
    ensures r.Ok? ==> forall i :: 0 <= i < |r.value.rows| ==> Matches(r.value.rows[i], col, value)
    ensures r.Ok? ==> forall row :: (multiset(r.value.rows)[row] ==
              if Matches(row, col, value) then multiset(cache[tabLabel].value.rows)[row] else 0)
  {
    if tabLabel !in cache then Err(KeyError(tabLabel))
    else match cache[tabLabel]
      case None => Err(TypeError("'NoneType' object is not subscriptable"))
      case Some(df) =>
        if col !in df.columns then Err(KeyError(col))
        else
          FilterEqCounts(df.rows, col, value);
          Ok(Frame(df.columns, FilterEq(df.rows, col, value)))
  }

  /** The filter sees exactly what `init_global_vars` published under the
      label: the published rows that match, in their original order. */
  lemma FilterReadsPublishedData<V(!new)>(inst: Instance<Frame<V>>, cache: Cache<V>, tabLabel: string,
                                             loader: nat -> Option<Frame<V>>, col: string, value: V)
    requires CacheWellFormed(cache)
    requires ReadData(inst, loader).value.Some?
    requires WellFormed(ReadData(inst, loader).value.value)
    ensures var published := InitGlobalVars(inst, cache, tabLabel, loader).1;
      var df := ReadData(inst, loader).value.value;
      CacheWellFormed(published)
      && UpdateGraphRows(published, tabLabel, col, value)
         == if col in df.columns then Ok(Frame(df.columns, FilterEq(df.rows, col, value))) else Err(KeyError(col))
  {
  }

  /** Two tabs with the same label share one cache entry: the later
      publication wins. */
  lemma CacheLastWriterWins<V>(a: Instance<Frame<V>>, b: Instance<Frame<V>>, cache: Cache<V>, tabLabel: string,
                               la: nat -> Option<Frame<V>>, lb: nat -> Option<Frame<V>>)
    ensures var c1 := InitGlobalVars(a, cache, tabLabel, la).1;
      InitGlobalVars(b, c1, tabLabel, lb).1 == cache[tabLabel := ReadData(b, lb).value]
  {
  }

  // ---------------------------------------------------------------------------
  // MultiTab
  // ---------------------------------------------------------------------------

  function Flatten<A>(rows: seq<seq<A>>): seq<A> {
    if |rows| == 0 then [] else rows[0] + Flatten(rows[1..])
  }

  /** `[data[i:i+2] for i in range(0, len(data), 2)]`. */
  function Chunks<A>(data: seq<A>): (rows: seq<seq<A>>)
    ensures |rows| == (|data| + 1) / 2
    ensures Flatten(rows) == data
    ensures forall k :: 0 <= k < |rows| - 1 ==> |rows[k]| == 2
    ensures |rows| > 0 ==> (|rows[|rows| - 1]| == 1 <==> |data| % 2 == 1)
    ensures |rows| > 0 ==> 1 <= |rows[|rows| - 1]| <= 2
    decreases |data|
  {
    if |data| == 0 then []
    else if |data| <= 2 then [data]
    else
      var rest := Chunks(data[2..]);
      assert data == data[..2] + data[2..];
      [data[..2]] + rest
  }

  /** A laid-out row: its children and whether it carries `flex_style`. */
  datatype LayoutRow<A> = LayoutRow(children: seq<A>, flexStyled: bool)

  /** `flex_row`: a row of exactly one element is not flex-styled. */
  function FlexRow<A>(data: seq<A>): (r: LayoutRow<A>)
    ensures r.children == data
    ensures r.flexStyled <==> |data| != 1
  {
    if |data| == 1 then LayoutRow(data, false) else LayoutRow(data, true)
  }

  /** `MultiTab.generate_tab`: render every child tab, two per row. */
  function GenerateMultiTab<A>(tabList: seq<TabDecl>, render: TabDecl -> A): (rows: seq<LayoutRow<A>>)
    ensures |rows| == (|tabList| + 1) / 2
    ensures forall k :: 0 <= k < |rows| ==> (rows[k].flexStyled <==> |rows[k].children| != 1)
    ensures forall k :: 0 <= k < |rows| ==> 1 <= |rows[k].children| <= 2
    ensures Flatten(RowChildren(rows)) == seq(|tabList|, i requires 0 <= i < |tabList| => render(tabList[i]))
  {
    var data := seq(|tabList|, i requires 0 <= i < |tabList| => render(tabList[i]));
    var chunks := Chunks(data);
    var rows := seq(|chunks|, k requires 0 <= k < |chunks| => FlexRow(chunks[k]));
    assert RowChildren(rows) == chunks;
    rows
  }

  function RowChildren<A>(rows: seq<LayoutRow<A>>): seq<seq<A>> {
    seq(|rows|, k requires 0 <= k < |rows| => rows[k].children)
  }

  /** The composite layout: ceil(n/2) rows that read back the rendered
      children in order; every row but the last holds two children and is
      flex-styled; the last holds one child, unstyled, exactly when n is odd. */
  lemma MultiTabLayout<A>(tabList: seq<TabDecl>, render: TabDecl -> A)
    ensures var rows := GenerateMultiTab(tabList, render);
      && |rows| == (|tabList| + 1) / 2
      && Flatten(RowChildren(rows)) == seq(|tabList|, i requires 0 <= i < |tabList| => render(tabList[i]))
      && (forall k :: 0 <= k < |rows| - 1 ==> |rows[k].children| == 2 && rows[k].flexStyled)
      && (|rows| > 0 ==> (!rows[|rows| - 1].flexStyled <==> |tabList| % 2 == 1))
  {
    var data := seq(|tabList|, i requires 0 <= i < |tabList| => render(tabList[i]));
    var rows := GenerateMultiTab(tabList, render);
    assert RowChildren(rows) == Chunks(data);
  }

  /** The five-child composite of the example tabs lays out as three rows:
      two flex-styled pairs, then the fifth child alone. */
  lemma FiveChildMultiTab<A>(tabList: seq<TabDecl>, render: TabDecl -> A)
    requires |tabList| == 5
    ensures var rows := GenerateMultiTab(tabList, render);
      |rows| == 3 && rows[0].flexStyled && rows[1].flexStyled && !rows[2].flexStyled
      && rows[2].children == [render(tabList[4])]
  {
    MultiTabLayout(tabList, render);
    var rows := GenerateMultiTab(tabList, render);
    var data := seq(|tabList|, i requires 0 <= i < |tabList| => render(tabList[i]));
    var rc := RowChildren(rows);
    assert Flatten(rc[2..]) == rc[2] + Flatten(rc[3..]) && rc[3..] == [];
    assert Flatten(rc[1..]) == rc[1] + Flatten(rc[2..]) by { assert rc[1..][1..] == rc[2..]; }
    assert |rc[0]| == 2 && |rc[1]| == 2;
    assert data[4] == render(tabList[4]);
  }
}

=== FILE: wrappers.dfy ===
/** Failure-carrying values shared by every module of the dashboard model.

    `Error` names the Python exception a path of the original code raises;
    its payload is the key, attribute or message the exception carries. */
module Wrappers {

  /** Python's `None` versus a present value. */
  datatype Option<+T> = None | Some(value: T) {

    /** The value, or `default` when absent (Python's `x if x is not None else default`). */
    function GetOr(default: T): T {
      match this
      case Some(v) => v
      case None => default
    }
  }

  /** The exceptions raised along the modelled paths. */
  datatype Error =
    | ValueError(msg: string)
    | KeyError(key: string)
    | AttributeError(name: string)
    | NotImplementedError(msg: string)
    | AssertionError
    | IndexError
    | TypeError(msg: string)

  /** A value, or the exception that interrupted its computation. */
  datatype Result<+T> = Ok(value: T) | Err(error: Error) {

    predicate IsFailure() {
      Err?
    }

    function PropagateFailure<U>(): Result<U>
      requires Err?
    {
      Err(error)
    }

    function Extract(): T
      requires Ok?
    {
      value
    }
  }

  function Max(a: int, b: int): int {
    if a < b then b else a
  }
}
